=== FILE: README.md ===
# Atelier reviews: ETL and metadata aggregation, modelled in Dafny

This project models the data logic of the Atelier product-reviews service. There are two paths, and the model covers both.

**Bulk load (three ETL scripts).** These read the reference CSV files into in-memory lookup tables:
- characteristic definitions, where the last row of an id wins;
- characteristic reviews and photos, one list per review id, in file order.

Each review row is turned into a review document with its photos attached. Documents are inserted in batches of 5000. Each product's metadata document is then computed from scratch:
- `sumChars` in `etlmongo.js` averages characteristic values per product and characteristic **name**;
- `updateReviewsMeta` in `metaETL.js` builds the rating histogram and recommend counts from the Review collection, and averages characteristic values per characteristic **id**.

**Live API (`server/model.js`).** This updates a stored metadata document one review at a time with `$inc`:
- one more review in the rating bucket and in the recommend bucket;
- each posted characteristic adds its value to `total` and 1 to `count`, and is meant to then set `value = total / count`. As written, that `$set` matches no document, so `value` is never rewritten (see Findings). The store models the intended update, and the written one is modelled beside it.

It also raises a review's helpfulness, marks a review reported, and lists a product's unreported reviews.

## Modules

| file | module | contents |
|---|---|---|
| `records.dfy` | `Records` | Parsed CSV rows and the documents built from them. |
| `keys.dfy` | `Keys` | The order JavaScript enumerates non-negative integer (array-index) object keys in: ascending. This is `Ascending`, plus `NextKey` for one step of a `for ... in` loop. |
| `lookup.dfy` | `Lookup` | The lookup tables as folds over the rows. The class `Tables` holds the three module-level dictionaries that the row callbacks update in place. |
| `enrich.dfy` | `Enrich` | `processPhotos` and the review document built from a row. `Resolve` is the join/filter of characteristic reviews against their definitions. |
| `batching.dfy` | `Batching` | The class `BatchWriter`: a capped buffer plus a ghost log of the batches handed on. `Chunks` is the reference split it is proved against. |
| `counts.dfy` | `Counts` | The rating histogram and recommend counts, shared by the bulk and the live path. |
| `meta_collection.dfy` | `MetaCollection` | The bulk-load ReviewsMeta collection as a class over a map of documents. |
| `etlmongo.dfy` | `EtlMongo` | `etlmongo.js`: loading, batched review inserts, `sumChars`, and the per-product upserts. |
| `meta_etl.dfy` | `MetaEtl` | `metaETL.js`: the batching loader, the join, and the per-product recomputation and upsert. |
| `reviews_etl.dfy` | `ReviewsEtl` | `reviewsETL.js`: photo grouping, and the awaited batched inserts with abort on failure. |
| `server_model.dfy` | `ServerModel` | `server/model.js`: the class `Store` over the review table and a map of metadata documents. |
| `reconcile.dfy` | `Reconcile` | How the live path would relate to the bulk path: replaying `updateMeta` over a product's reviews gives the bulk results. This is a hypothetical comparison: the server writes the `metas` collection and the bulk scripts write `reviewsmetas`, whose schema has no `total` or `count`. The replay therefore starts from an entry whose total and count are 0. |

Averages are JavaScript Number divisions. The model keeps sums and counts as integers and states each average as the `real` quotient `sum / count`.

## Model

| member | source | states |
|---|---|---|
| `Keys.Ascending` | database/mongodb/metaETL.js:132 | The keys of an integer-keyed object, each exactly once, strictly ascending, and all of them. |
| `Keys.NextKey` | database/mongodb/etlmongo.js:154 | A `for ... in` over non-negative integer keys visits the least key not yet visited. |
| `Keys.Least` | database/mongodb/etlmongo.js:87 | The least key of a non-empty key set is one of its keys and at most every other. |
| `Lookup.GroupInto` | database/mongodb/etlmongo.js:46-59 | Every row's review id gets a list, and an existing list only grows at its end: the earlier list is a prefix of the new one. |
| `Lookup.GroupExactly` | database/mongodb/etlmongo.js:45-59 | From empty tables, a review id has a list exactly when some row carries it, and the list holds exactly that id's rows in file order. |
| `Lookup.GroupAppend` | database/mongodb/reviewsETL.js:47-52 | Grouping a file in two consecutive parts is grouping it in one pass. |
| `Lookup.ValuesOfMembers` | database/mongodb/etlmongo.js:54-58 | Every value listed under an id was read from a row carrying that id. |
| `Lookup.Define` | database/mongodb/etlmongo.js:41-43 | Every row's id is defined, earlier ids stay defined, and the last row's id holds that row's name and product id. |
| `Lookup.LastWriteWins` | database/mongodb/etlmongo.js:41-43 | For a repeated id, the definition kept has the name and product id of the last row of that id. |
| `Lookup.DefinedIds` | database/mongodb/etlmongo.js:41-43 | The ids defined are the earlier ones plus those of the rows. An id no row mentions keeps its entry. |
| `Lookup.DefineAppend` | database/mongodb/metaETL.js:53-57 | Defining characteristics batch by batch is defining them in one pass. |
| `Lookup.Tables.constructor` | database/mongodb/etlmongo.js:20-22 | The three dictionaries start empty. |
| `Lookup.Tables.AddCharacteristic` | database/mongodb/etlmongo.js:41-43 | The characteristics.csv callback overwrites the entry of the row's id and changes no other table. |
| `Lookup.Tables.AddCharacteristicReview` | database/mongodb/etlmongo.js:46-51 | The characteristic_reviews.csv callback appends `{characteristic_id, value}` to the review's list, creating the list first, and changes no other table. |
| `Lookup.Tables.AddPhoto` | database/mongodb/etlmongo.js:54-59 | The reviews_photos.csv callback appends `{id, url}` to the review's list, creating the list first, and changes no other table. |
| `Lookup.Tables.LoadCharacteristics` | database/mongodb/etlmongo.js:40-43 | Streaming characteristics.csv leaves the last-write-wins fold of its rows. |
| `Lookup.Tables.LoadCharacteristicReviews` | database/mongodb/etlmongo.js:45-51 | Streaming characteristic_reviews.csv leaves the grouping of its rows by review id. |
| `Lookup.Tables.LoadPhotos` | database/mongodb/etlmongo.js:53-59 | Streaming reviews_photos.csv leaves the grouping of its rows by review id. |
| `Enrich.ProcessPhotos` | database/mongodb/etlmongo.js:25 | The copied list has the same photos, in the same order. Each keeps only its id and url. |
| `Enrich.EnrichReview` | database/mongodb/etlmongo.js:111-128 | The review document carries the row's review id, product id, rating and text fields. `recommend` is true exactly when the raw field is `"true"`. `photos` is the review's photo list, or `[]` when it has none. |
| `Enrich.EnrichedPhotosAreTheReviewsRows` | database/mongodb/etlmongo.js:114 | After loading, a review's photos are exactly the photo rows carrying its id, in file order. |
| `Enrich.Resolve` | database/mongodb/metaETL.js:65-78 | An observation is dropped exactly when its characteristic id is undefined. Every kept observation carries the definition's product id and name, and every defined row is kept. |
| `Enrich.ResolveAppend` | database/mongodb/metaETL.js:64-79 | Joining the file batch by batch is joining it in one pass, with order kept. |
| `Batching.ChunksRebuild` | database/mongodb/metaETL.js:25-45 | The batches concatenate back to the input. None is empty or over the cap, and all but the last are exactly full. |
| `Batching.ChunksUnique` | database/mongodb/reviewsETL.js:85-95 | A split into full batches with a non-empty last one is the chunking of its concatenation. |
| `Batching.FullBatchesPrefix` | database/mongodb/reviewsETL.js:85-89 | Full batches handed on mid-stream are the first batches of the chunking of the whole stream. |
| `Batching.FlattenSnoc` | database/mongodb/metaETL.js:29 | Handing on one more batch appends its records to everything handed on. |
| `Batching.BatchWriter.constructor` | database/mongodb/metaETL.js:25 | The writer starts with an empty buffer and nothing handed on. |
| `Batching.BatchWriter.Push` | database/mongodb/metaETL.js:29-36 | The record is appended. When the buffer reaches the cap it is handed on whole and reset. Everything received so far is the batches handed on followed by the buffer. |
| `Batching.BatchWriter.End` | database/mongodb/metaETL.js:39-45 | At end of stream a non-empty buffer is handed on once; an empty one hands on nothing. |
| `Counts.Histogram` | database/mongodb/metaETL.js:107-112 | The histogram has keys 1 to 5, and every rating seen has a positive count. |
| `Counts.Recommendations` | database/mongodb/metaETL.js:108-117 | Every review is counted once: yes plus no is the number of reviews. |
| `Counts.HistogramCounts` | database/mongodb/metaETL.js:107-112 | The histogram has keys 1 to 5 and every rating seen. Each key counts exactly the reviews with that rating. |
| `Counts.HistogramTotal` | database/mongodb/metaETL.js:107-112 | With ratings in 1..5, the keys are exactly 1..5 and the five buckets sum to the number of reviews. |
| `Counts.HistogramSize` | database/mongodb/metaETL.js:107-112 | Whatever the ratings, the buckets sum to the number of reviews. |
| `Counts.HistogramOrderFree` | database/mongodb/metaETL.js:111-112 | The histogram does not depend on the order the reviews are visited in. |
| `Counts.RecommendationCounts` | database/mongodb/metaETL.js:108-117 | `true` counts the recommending reviews and `false` the others; together they count every review. |
| `Counts.RecommendationsOrderFree` | database/mongodb/metaETL.js:113-117 | The recommend counts do not depend on the order of the reviews. |
| `Counts.BumpTotal` | server/model.js:37-45 | One more review in any rating bucket raises the histogram total by exactly one. |
| `Counts.TotalWithout` | server/model.js:40 | The histogram total is any one bucket plus the total of the rest. |
| `Counts.ZeroTotal` | database/mongodb/metaETL.js:107 | A histogram of zeros totals zero. |
| `MetaCollection.ReviewsMetaCollection.SetCharacteristics` | database/mongodb/etlmongo.js:155-161 | The product's document gets the new characteristics and keeps its other fields. A missing document is created with only the characteristics. No other document changes. |
| `MetaCollection.ReviewsMetaCollection.SetSummary` | database/mongodb/metaETL.js:142-152 | The product's document gets the ratings, recommend counts and characteristics, created if missing. No other document changes. |
| `MetaEtl.LoadData` | database/mongodb/metaETL.js:22-47 | The batches handed to `onEachBatch` are the chunking of the rows by `batchSize` and concatenate back to the rows. A size of 0 acts like 1. |
| `MetaEtl.DefineBatch` | database/mongodb/metaETL.js:53-57 | The loadCharsData batch callback applies last-write-wins to its rows. |
| `MetaEtl.LoadCharsData` | database/mongodb/metaETL.js:51-58 | characteristicsById after the batched load equals the one-pass last-write-wins fold of the file. |
| `MetaEtl.ResolveBatch` | database/mongodb/metaETL.js:64-79 | The loadCharsReviewsData batch callback appends exactly the joined observations of the batch, in order. |
| `MetaEtl.LoadCharsReviewsData` | database/mongodb/metaETL.js:60-82 | The observations after the batched load are the one-pass join of the file. |
| `MetaEtl.Reduce` | database/mongodb/metaETL.js:123-130 | Every observed characteristic id has an entry, and every entry has count at least 1. |
| `MetaEtl.ReduceTallies` | database/mongodb/metaETL.js:121-130 | `charsForProduct` has an entry exactly for each characteristic id observed. Each entry holds that id's sum, its number of observations, and the name of its first observation. |
| `MetaEtl.WithIdMembers` | database/mongodb/metaETL.js:124-128 | A characteristic id's group holds exactly the observations with that id. |
| `MetaEtl.ForProductMembers` | database/mongodb/metaETL.js:121-122 | The filter keeps exactly the product's observations. |
| `MetaEtl.AverageChars` | database/mongodb/metaETL.js:132-139 | One entry per key of `charsForProduct`, in strictly ascending id order, each with the key's name and value = sum / count. |
| `MetaEtl.MeansAt` | database/mongodb/metaETL.js:133-138 | Each key gives `{id, name, value: sum / count}`, in the given order. |
| `MetaEtl.CharAveragesAscending` | database/mongodb/metaETL.js:132-139 | `averagedChars` lists characteristic ids in strictly ascending order, each once. |
| `MetaEtl.CharAveragesMeans` | database/mongodb/metaETL.js:121-139 | Each entry's id has at least one observation for the product. The entry carries that id's first name and the mean of its values. |
| `MetaEtl.CharAveragesComplete` | database/mongodb/metaETL.js:121-139 | Every characteristic observed for the product is listed. |
| `MetaEtl.GroupOf` | database/mongodb/metaETL.js:90-104 | The `$group` array of a product has at most one entry per review. |
| `MetaEtl.GroupOfReviews` | database/mongodb/metaETL.js:90-104 | The `$group` array of a product has exactly one `{rating, recommend}` entry per review of the product, in collection order. |
| `MetaEtl.GroupOfMembers` | database/mongodb/metaETL.js:90-104 | An entry is in a product's `$group` array exactly when some review of that product has that `{rating, recommend}`. This is membership; `MetaEtl.GroupOfReviews` gives the multiplicity. |
| `MetaEtl.CountedSnoc` | database/mongodb/metaETL.js:111-117 | One more entry of the group adds one to its rating bucket and one to its recommend side. |
| `MetaEtl.CountRatings` | database/mongodb/metaETL.js:107-118 | The counting loop gives the histogram, with keys 1 to 5 preset, and the recommend counts of the entries. |
| `MetaEtl.SummarizeProduct` | database/mongodb/metaETL.js:106-140 | One iteration computes the product's histogram, recommend counts and characteristic averages. |
| `MetaEtl.OverlayStep` | database/mongodb/metaETL.js:142-152 | Upserting one more product's document extends the recomputed collection by that product. |
| `MetaEtl.UpsertProduct` | database/mongodb/metaETL.js:106-153 | The product's document is replaced by its recomputation. No other document changes. |
| `MetaEtl.UpdateReviewsMeta` | database/mongodb/metaETL.js:86-154 | Visiting products in ascending id, every product with reviews below the first rejected upsert gets its recomputed document. A rejected upsert ends the call, which then reports `aborted`; that happens exactly when some reviewed product's write fails. The failing product and all later ones keep their old documents, and every other document is untouched. |
| `MetaEtl.WrittenShape` | database/mongodb/metaETL.js:142-152 | The products written before a rejection: none of them fails, each is below every product not written, every product not written is at or above a failing one, and all are written exactly when none fails. |
| `MetaEtl.Run` | database/mongodb/metaETL.js:156-166 | The script leaves the recomputation over the joined observations of the two files, for the products written before the first rejected upsert. It reports `aborted` exactly when an upsert is rejected, the case the top-level `.catch` handles. |
| `MetaEtl.RecomputedOnlyReviewed` | database/mongodb/metaETL.js:104-106 | Only products with at least one review are written. Observations of other products never reach the collection. |
| `MetaEtl.RecomputedCounts` | database/mongodb/metaETL.js:107-118 | A written document has histogram keys 1 to 5 and counts each rating of its grouped entries. Its yes count is the number of recommending entries. Both the histogram total and yes + no equal the number of the product's reviews in the collection. |
| `EtlMongo.LoadAllData` | database/mongodb/etlmongo.js:39-60 | The three files are loaded in order: last-write-wins definitions, and characteristic reviews and photos grouped by review id. |
| `EtlMongo.ProcessReviews` | database/mongodb/etlmongo.js:103-148 | The insertMany calls are the chunking by 5000 of the enriched rows, in input order. |
| `EtlMongo.FindName` | database/mongodb/etlmongo.js:73 | A product's running entry for a name is the first entry carrying it, or there is none. |
| `EtlMongo.MatchingMembers` | database/mongodb/etlmongo.js:68-81 | The observations counted under a product and name are exactly those whose characteristic has that product and name. |
| `EtlMongo.SumAll` | database/mongodb/etlmongo.js:66-83 | Every product an observation resolves to has entries, and no product has an empty list. |
| `EtlMongo.SumAllSummarizes` | database/mongodb/etlmongo.js:64-83 | Each running entry counts each of its observations exactly once: its id is the first observation's, with the sum and number of the observations. Names are distinct within a product, and every observed name has an entry. |
| `EtlMongo.CountObservation` | database/mongodb/etlmongo.js:68-81 | One observation creates its product's entry for its name if needed, then adds its value and one to the count. |
| `EtlMongo.CountReview` | database/mongodb/etlmongo.js:67-82 | One review's list of observations extends the fold by each observation in file order. |
| `EtlMongo.Summarize` | database/mongodb/etlmongo.js:64-83 | The first loop folds the observations in ascending review-id order. |
| `EtlMongo.VisitHas` | database/mongodb/etlmongo.js:66-67 | The first loop visits every observation of every review. |
| `EtlMongo.AverageEntries` | database/mongodb/etlmongo.js:89-96 | One `{id, name, value: sum / count}` per running entry of a product, in entry order. |
| `EtlMongo.ToUpdate` | database/mongodb/etlmongo.js:86-97 | `characteristicsUpdate` has exactly the products of `summarizedChars`, each with the averages of its entries. |
| `EtlMongo.SummarizedCounted` | database/mongodb/etlmongo.js:80-81 | Every running entry has been counted at least once, so no average divides by zero. |
| `EtlMongo.UpdateAveraged` | database/mongodb/etlmongo.js:87-96 | Each product's list is non-empty with distinct names. Each entry carries its first observation's id and the mean of its name's observations. |
| `EtlMongo.UpdateListed` | database/mongodb/etlmongo.js:70-79 | Every visited observation's characteristic name is listed under its product. |
| `EtlMongo.SumChars` | database/mongodb/etlmongo.js:63-100 | Only products with observations are emitted, each non-empty with names distinct. Each entry's value is the mean of its name's observations and its id that of the first one. Every observed characteristic is listed. |
| `EtlMongo.WriteCharacteristics` | database/mongodb/etlmongo.js:153-163 | Each product of the update gets its new characteristics by upsert, except products whose `findOneAndUpdate` fails. Those are logged (`logged` is exactly the failing products of the update), skipped, and keep their old document or stay absent. Every other document is untouched. |
| `EtlMongo.UpsertedDocs` | database/mongodb/etlmongo.js:155-162 | For any set of successfully written products: they get the new list, keep their ratings and recommend counts, and new documents have none. Documents of all other products, including skipped failing ones, are unchanged. |
| `EtlMongo.LoadedResolved` | database/mongodb/etlmongo.js:66-69 | When every characteristic review names a characteristic of the file, `sumChars` never looks up an undefined characteristic. |
| `EtlMongo.Run` | database/mongodb/etlmongo.js:176-186 | When every characteristic review names a characteristic of the file, the script inserts the chunked enriched reviews and upserts each product's name-grouped averages over all observations. Products whose upsert fails are logged and skipped. |
| `ReviewsEtl.ProcessPhotosOrEmpty` | database/mongodb/reviewsETL.js:22-25 | A missing list gives `[]`. Otherwise the result has the same length and order, each photo keeping its id and url. |
| `ReviewsEtl.EnrichedPhotos` | database/mongodb/reviewsETL.js:68 | A review's photos are its group, or `[]` when its id has none. |
| `ReviewsEtl.LoadAllData` | database/mongodb/reviewsETL.js:44-53 | `photosByReviewId` groups the photo rows by review id in file order. |
| `ReviewsEtl.FirstFailure` | database/mongodb/reviewsETL.js:86 | The first failing insertMany call, with every earlier call succeeding. |
| `ReviewsEtl.FirstFailureAt` | database/mongodb/reviewsETL.js:86 | A failing call after only successful ones is the first failure. |
| `ReviewsEtl.AbortedMidStream` | database/mongodb/reviewsETL.js:85-89 | When a mid-stream insert fails, the batches already inserted are the first batches of the whole chunking. |
| `ReviewsEtl.ProcessReviews` | database/mongodb/reviewsETL.js:57-97 | The inserted batches are the chunking by 5000 of the enriched rows, cut before the first failing insert. The run aborts exactly when some insert fails. The buffer holds fewer than 5000 records at every iteration. |
| `ReviewsEtl.Run` | database/mongodb/reviewsETL.js:101-113 | The script loads the photos, then inserts as `ProcessReviews` does. |
| `ReviewsEtl.InsertedBatches` | database/mongodb/reviewsETL.js:58-95 | No insert is empty. Every insert but the last has exactly 5000 records; on abort, every insert does. A run that does not abort inserts every record once, in input order. |
| `ServerModel.Visible` | server/model.js:9-11 | The listing holds only unreported reviews of the product and is no longer than the collection. |
| `ServerModel.VisibleMembers` | server/model.js:9-11 | getReviews returns exactly the product's reviews that are not reported. |
| `ServerModel.MarkHelpful` | server/model.js:21-25 | The review's helpfulness grows by exactly one and no other review changes. An unknown id changes nothing. |
| `ServerModel.MarkReported` | server/model.js:27-31 | The review becomes reported and no other review changes. An unknown id changes nothing. |
| `ServerModel.ReportIdempotent` | server/model.js:27-31 | Reporting twice is reporting once. |
| `ServerModel.HelpfulKeepsListing` | server/model.js:21-25 | A helpfulness vote leaves every product's listing the same length. |
| `ServerModel.ReportHides` | server/model.js:27-31 | Reporting a listed review removes exactly it from its product's listing; anything else leaves the listing's length alone. |
| `ServerModel.IncCounts` | server/model.js:34-45 | The rating bucket grows by one, created at 0 if absent, and every other bucket is unchanged. The histogram total grows by one. The recommend side chosen by `recommend` grows by one. Characteristics are untouched. |
| `ServerModel.FindChar` | server/model.js:48-50 | The positional operator picks the first entry carrying the name, or none. |
| `ServerModel.MergeCharacteristicAsWritten` | server/model.js:47-66 | As written: the first entry with the name gets `total += value` and `count += 1`, but its `value` stays as it was. No entry with the name means failure. |
| `ServerModel.AsWrittenValueIsStale` | server/model.js:63-66 | After one review rating "Fit" 4 on a fresh entry, total / count is 4 while the stored value stays 0. |
| `ServerModel.MergeCharacteristic` | server/model.js:47-67 | As intended: the first entry with the name gets `total += value`, `count += 1` and `value = total / count`. Other entries, the ratings and the recommend counts are unchanged. No entry with the name means failure. |
| `ServerModel.MergeAll` | server/model.js:47-70 | As intended (see Findings): the characteristic updates never touch the ratings or recommend counts, nor the number of entries. Posting nothing changes nothing and does not fail. |
| `ServerModel.MergeAllShape` | server/model.js:47-70 | The characteristic updates keep the ratings, the recommend counts and every entry's name. The call fails exactly when some posted name has no entry. |
| `ServerModel.MergeAllFirst` | server/model.js:47-67 | As intended (see Findings): the first entry carrying a name ends with the posted values of that name added to its total and their number to its count. Its value ends as total / count when any were posted. |
| `ServerModel.MergeAllShadowed` | server/model.js:48-50 | An entry whose name an earlier entry already carries is never touched. |
| `ServerModel.MergeAllAppend` | server/model.js:47-70 | Two reviews' updates in turn are the updates of both lists at once, and the call fails when either fails. |
| `ServerModel.UpdatedMetas` | server/model.js:33-72 | As intended (see Findings): no document is created or removed, and other products' documents are unchanged. With no document, nothing is written and the call fails exactly when characteristics were posted. |
| `ServerModel.UpdatedMetasSnoc` | server/model.js:47-70 | As intended (see Findings): one more posted characteristic applies its update when its name has an entry, and otherwise fails the call. |
| `ServerModel.UpdatedMetasEffect` | server/model.js:33-72 | Only the product's document changes. Its histogram and recommend totals each grow by one and its entries keep their names. With no document nothing is written (no upsert). The call fails exactly when some posted name has no entry. |
| `ServerModel.Store.constructor` | server/model.js:1-7 | The store holds the given reviews and metadata documents. |
| `ServerModel.Store.GetReviews` | server/model.js:9-11 | The found reviews are exactly the product's unreported reviews, in collection order. |
| `ServerModel.Store.GetMeta` | server/model.js:13-15 | At most one document: the product's, or none when it has none. |
| `ServerModel.Store.AddReview` | server/model.js:16-19 | The posted review is appended as a new document at the next id. It is reported exactly when the body posts `reported: true`; the schema default `false` applies when the body omits it. The metadata is untouched. |
| `ServerModel.Store.UpdateHelpful` | server/model.js:21-25 | The review table becomes `MarkHelpful` of it. The metadata is untouched. |
| `ServerModel.Store.ReportReview` | server/model.js:27-31 | The review table becomes `MarkReported` of it. The metadata is untouched. |
| `ServerModel.Store.IncMetaCounts` | server/model.js:37-45 | The product's document gets the count update. A missing document is not created. |
| `ServerModel.Store.MergeOne` | server/model.js:48-66 | As intended (see Findings): one characteristic update applied in place, to total, count and then the value. It is unmatched, and nothing changes, when the document or the name is missing. |
| `ServerModel.Store.UpdateMeta` | server/model.js:33-72 | As intended (see Findings): the count update, then each posted characteristic in order. The metadata and the failure flag are those of `UpdatedMetas`. |
| `Reconcile.ReplayCounts` | server/model.js:37-45 | Replaying updateMeta over a product's reviews from the schema defaults gives exactly the histogram and recommend counts of the bulk counting loop (database/mongodb/metaETL.js:107-118). The two paths write different collections, so this compares them; it is not a flow between them. |
| `Reconcile.MergeAllOnlyCharacteristics` | server/model.js:47-67 | The characteristic updates read and write only the characteristics list. |
| `Reconcile.ReplayCharacteristics` | server/model.js:33-72 | The characteristics after the replay are those after all posted characteristics at once. The count updates in between do not touch them. |
| `Reconcile.NamedIsWithId` | database/mongodb/metaETL.js:121-130 | When one name and one characteristic id pick out the same observations, the values posted under the name have the id's sum and count. |
| `Reconcile.ReplayMatchesBulkAverages` | database/mongodb/metaETL.js:121-139 | As intended (see Findings), and for an entry starting at total 0 and count 0: replaying updateMeta over a product's observations leaves that entry with the bulk reduce's sum and count, and with value = sum / count, the bulk average. |

## Left out

- Connecting to MongoDB, registering models and disconnecting are not modelled. The collections are in-memory maps and sequences.
- A rejected database write is modelled by a set of failing product ids: `MetaEtl.UpdateReviewsMeta` stops at the first, and `EtlMongo.WriteCharacteristics` logs and skips each. The set stands in for the database; the error value and its message are not modelled.
- `Keys.Ascending`: applies the ascending rule to every integer key. JavaScript enumerates only array-index keys (0 to 2^32 - 2) in ascending order, and other keys in insertion order. The ids in this data are positive and below that bound.
- Reading files with `fs.createReadStream` and `csv-parser` is not modelled. Each file is an already-parsed sequence of rows.
- `parseInt`, `parseFloat`, `Number` and `new Date(...)` are not modelled. Parsed fields are integers, characteristic values are whole numbers, and dates are opaque integers.
- The string/number key coercion of JavaScript objects is not modelled. A review id read as text and looked up as a number names the same key.
- Stream pause/resume in `loadData` is modelled as sequential batch handling. The un-awaited `insertMany` of `etlmongo.js` is modelled as the sequence of calls it makes, without their outcome.
- `Promise.all` in `updateMeta` is modelled as applying the characteristic updates one after the other, in list order.
- `EtlMongo.ProcessReviews`: the outcome of each un-awaited insert is not modelled. Only the batches handed to `insertMany` are stated.
- `ReviewsEtl.ProcessReviews`: a failed `insertMany` is taken to insert nothing of its batch. A partial insert before the error is not modelled.
- The `$group` stage of `updateReviewsMeta` is modelled as filtering the review sequence by product id. Products are visited in ascending product id, since `$group` output order is unspecified.
- `ServerModel.IncCounts`: a rating outside 1..5 is modelled as creating its bucket. Mongoose strict mode may instead drop a path the schema does not declare.
- A review's `_id` is modelled as its position in the review table.
- `EtlMongo.SumChars` requires every observed characteristic id to be defined. The source throws a TypeError at `characteristic.product_id` otherwise, and that crash is not modelled. `EtlMongo.LoadedResolved` gives a condition on the files under which the requirement holds.
- `EtlMongo.Run` requires that condition, `Referenced`, for the same reason: a characteristic review whose id is missing from characteristics.csv would crash `sumChars`, and that run is not modelled.
- `EtlMongo.SumChars`: the contracts do not state the order of the entries within a product. The model builds them in the order names are first seen, which is the JavaScript order only for names that do not look like integers.
- `ServerModel.Store.AddReview`: a posted `_id` is not modelled. The new document always takes the next position as its id.
- `ServerModel.Store.GetMeta`: the metadata documents are keyed by product id, so at most one document per product exists by construction. `Meta.find({product_id})` returns every matching document, and nothing in the server enforces one document per product.
- `ServerModel.Store.UpdateMeta`: the count update is taken to succeed. In the source, a rejected count update skips the characteristic updates chained after it, and that path is not modelled.
- `ServerModel.Store.MergeOne`: a rejected promise is modelled as an unmatched update that changes nothing, while the other updates still apply. Error propagation to the HTTP layer is not part of this model.
- `ServerModel.MergeAll`: applies the intended `$set` of `value = total / count`. The source as written never rewrites `value` (server/model.js:63-66); that written behaviour is modelled only by `ServerModel.MergeCharacteristicAsWritten`, with the counterexample `ServerModel.AsWrittenValueIsStale`.
- `ServerModel.UpdatedMetas`: applies the intended `$set` of `value = total / count`. The source as written never rewrites `value` (server/model.js:63-66); that written behaviour is modelled only by `ServerModel.MergeCharacteristicAsWritten`, with the counterexample `ServerModel.AsWrittenValueIsStale`.
- `ServerModel.Store.MergeOne`: applies the intended `$set` of `value = total / count`. The source as written never rewrites `value` (server/model.js:63-66); that written behaviour is modelled only by `ServerModel.MergeCharacteristicAsWritten`, with the counterexample `ServerModel.AsWrittenValueIsStale`.
- `ServerModel.Store.UpdateMeta`: applies the intended `$set` of `value = total / count`. The source as written never rewrites `value` (server/model.js:63-66); that written behaviour is modelled only by `ServerModel.MergeCharacteristicAsWritten`, with the counterexample `ServerModel.AsWrittenValueIsStale`.
- `ServerModel.MergeAllFirst`: states the value of the intended update. For the written code only its `total` and `count` parts hold.
- `Reconcile.ReplayMatchesBulkAverages`: states the value of the intended update. For the written code only its `total` and `count` parts hold.
- `Reconcile.ReplayCounts`: compares the live path with the bulk path, as does `Reconcile.ReplayMatchesBulkAverages`. In the source, the live path updates the `metas` collection while the bulk scripts write `reviewsmetas`, so no bulk-loaded document is ever updated by `updateMeta`.
- The ETL `loadData` helpers of `etlmongo.js` and `reviewsETL.js` are only their row callbacks over a sequence of rows.
- cacheMiddleware.js, k6script.js, server/index.js and the two schema files are not part of this model. The schemas only give the shape of the datatypes.

## Findings

| source | as written | input that shows it | evidently intended | confidence | as-written member | corrected member |
|---|---|---|---|---|---|---|
| server/model.js:63-66 | The `$set` of the new average filters on the path `characteristics.$.name`, which no stored document has, so `value` is never rewritten. | A document with one entry `{name: "Fit", total: 0, count: 0, value: 0}`, then a review posting Fit = 4. Total becomes 4 and count 1, but value stays 0. | After the update, the entry's `value` is `total / count` (filter on `characteristics.name`). | not executed | `ServerModel.MergeCharacteristicAsWritten` | `ServerModel.MergeCharacteristic` |

=== FILE: batching.dfy ===
/** The batch writer: an ordered buffer capped at a batch size, handed on as one batch when it
    reaches the cap, with the non-empty remainder handed on once at end of stream. */
module Batching {
  import opened Records

  /** The batches, concatenated in order. */
  function Flatten<T>(batches: seq<seq<T>>): seq<T>
  {
    if batches == [] then [] else batches[0] + Flatten(batches[1..])
  }

  lemma {:induction false} FlattenSnoc<T>(batches: seq<seq<T>>, b: seq<T>)
    ensures Flatten(batches + [b]) == Flatten(batches) + b
  {
    if batches != [] {
      assert (batches + [b])[1..] == batches[1..] + [b];
      FlattenSnoc(batches[1..], b);
    } else {
      assert [b][1..] == [];
    }
  }

  /** Reference definition: consecutive slices of `size` elements, the last one possibly shorter. */
  function Chunks<T>(xs: seq<T>, size: nat): seq<seq<T>>
    requires size > 0
    decreases |xs|
  {
    if xs == [] then []
    else if |xs| <= size then [xs]
    else [xs[..size]] + Chunks(xs[size..], size)
  }

  /** No batch is empty or over `size`, and every batch but the last is exactly full. */
  ghost predicate WellFormed<T>(batches: seq<seq<T>>, size: nat)
  {
    && (forall i :: 0 <= i < |batches| ==> 0 < |batches[i]| <= size)
    && (forall i :: 0 <= i < |batches| - 1 ==> |batches[i]| == size)
  }

  /** The chunks concatenate back to the input and are well formed. */
  lemma {:induction false} ChunksRebuild<T>(xs: seq<T>, size: nat)
    requires size > 0
    ensures Flatten(Chunks(xs, size)) == xs
    ensures WellFormed(Chunks(xs, size), size)
    decreases |xs|
  {
    if xs != [] && |xs| > size {
      ChunksRebuild(xs[size..], size);
      var rest := Chunks(xs[size..], size);
      assert ([xs[..size]] + rest)[1..] == rest;
      assert xs == xs[..size] + xs[size..];
    } else if xs != [] {
      assert [xs][1..] == [];
    }
  }

  /** A well-formed split is the only one: it is the chunking of its concatenation. */
  lemma {:induction false} ChunksUnique<T>(batches: seq<seq<T>>, size: nat)
    requires size > 0
    requires WellFormed(batches, size)
    ensures batches == Chunks(Flatten(batches), size)
  {
    if batches != [] {
      var rest := batches[1..];
      assert WellFormed(rest, size) by {
        forall i | 0 <= i < |rest| ensures 0 < |rest[i]| <= size { assert rest[i] == batches[i + 1]; }
        forall i | 0 <= i < |rest| - 1 ensures |rest[i]| == size { assert rest[i] == batches[i + 1]; }
      }
      ChunksUnique(rest, size);
      var xs := Flatten(batches);
      if rest == [] {
        assert xs == batches[0];
        assert batches == [batches[0]];
      } else {
        assert |batches[0]| == size;
        assert |rest[0]| > 0;
        assert |Flatten(rest)| > 0;
        assert xs[..size] == batches[0];
        assert xs[size..] == Flatten(rest);
        assert batches == [batches[0]] + rest;
      }
    }
  }

  /** Batches of whole `size` elements followed by anything: chunking keeps them as its first batches. */
  lemma {:induction false} FullBatchesPrefix<T>(batches: seq<seq<T>>, rest: seq<T>, size: nat)
    requires size > 0
    requires forall i :: 0 <= i < |batches| ==> |batches[i]| == size
    ensures |batches| <= |Chunks(Flatten(batches) + rest, size)|
    ensures Chunks(Flatten(batches) + rest, size)[..|batches|] == batches
  {
    if batches != [] {
      var tail := batches[1..];
      FullBatchesPrefix(tail, rest, size);
      var xs := Flatten(batches) + rest;
      assert xs == batches[0] + (Flatten(tail) + rest);
      if |xs| <= size {
        assert tail == [] && rest == [];
        assert Chunks(xs, size) == [xs];
      } else {
        assert xs[..size] == batches[0];
        assert xs[size..] == Flatten(tail) + rest;
      }
      assert batches == [batches[0]] + tail;
    }
  }

  /** A buffer of records capped at `size`. `log` holds, in order, every batch handed on. */
  class BatchWriter<T> {
    const size: nat
    var buffer: seq<T>
    ghost var log: seq<seq<T>>
    ghost var ended: bool

    ghost predicate Valid()
      reads this
    {
      && size > 0
      && |buffer| < size
      && WellFormed(log, size)
      && (!ended ==> forall i :: 0 <= i < |log| ==> |log[i]| == size)
      && (ended ==> buffer == [])
    }

    /** Everything pushed so far, in order: the batches handed on, then the buffer. */
    ghost function Received(): seq<T>
      reads this
    {
      Flatten(log) + buffer
    }

    constructor (size: nat)
      requires size > 0
      ensures Valid() && !ended
      ensures this.size == size && buffer == [] && log == []
    {
      this.size := size;
      buffer, log, ended := [], [], false;
    }

    /** Appends one record; when the buffer reaches the cap it is handed on whole and reset. */
    method Push(x: T) returns (flushed: Option<seq<T>>)
      requires Valid() && !ended
      modifies this
      ensures Valid() && !ended
      ensures Received() == old(Received()) + [x]
      ensures flushed.Some? <==> |old(buffer)| + 1 == size
      ensures flushed.Some? ==> flushed.value == old(buffer) + [x] && buffer == [] && log == old(log) + [flushed.value]
      ensures flushed.None? ==> buffer == old(buffer) + [x] && log == old(log)
    {
      buffer := buffer + [x];
      if |buffer| >= size {
        flushed := Some(buffer);
        FlattenSnoc(log, buffer);
        log := log + [buffer];
        buffer := [];
      } else {
        flushed := None;
      }
    }

    /** End of stream: hands on the remaining records if there are any. */
    method End() returns (flushed: Option<seq<T>>)
      requires Valid() && !ended
      modifies this
      ensures Valid() && ended
      ensures Received() == old(Received())
      ensures flushed.Some? <==> old(buffer) != []
      ensures flushed.Some? ==> flushed.value == old(buffer) && log == old(log) + [old(buffer)]
      ensures flushed.None? ==> log == old(log)
      ensures buffer == []
    {
      if |buffer| > 0 {
        flushed := Some(buffer);
        FlattenSnoc(log, buffer);
        log := log + [buffer];
        buffer := [];
      } else {
        flushed := None;
      }
      ended := true;
    }
  }
}

=== FILE: counts.dfy ===
/** The rating histogram and recommend counts of a product. The bulk recomputation counts
    occurrences with `(ratingsSummary[rating] || 0) + 1`; the live path applies `$inc` to the
    stored document. Both add one under a key, creating it at zero first. */
module Counts {
  import opened Records
  import opened Keys

  /** Adds 1 under `k`, treating a missing key as 0. */
  function Bump(h: map<int, nat>, k: int): (h': map<int, nat>)
  {
    h[k := (if k in h then h[k] else 0) + 1]
  }

  /** The histogram before any review is counted: keys 1 to 5 at 0. */
  const BaseRatings: map<int, nat> := map[1 := 0, 2 := 0, 3 := 0, 4 := 0, 5 := 0]

  /** Counting loop over a product's ratings. */
  function Histogram(ratings: seq<int>): (h: map<int, nat>)
    ensures forall r :: 1 <= r <= 5 ==> r in h
    ensures forall i :: 0 <= i < |ratings| ==> ratings[i] in h && h[ratings[i]] > 0
  {
    if ratings == [] then BaseRatings
    else Bump(Histogram(ratings[..|ratings| - 1]), ratings[|ratings| - 1])
  }

  /** Adds one review's recommendation: a true value counts under yes, otherwise under no. */
  function Recommend(r: Recommended, recommend: bool): Recommended
  {
    if recommend then r.(yes := r.yes + 1) else r.(no := r.no + 1)
  }

  /** Counting loop over a product's recommend flags. */
  function Recommendations(recs: seq<bool>): (r: Recommended)
    ensures r.yes + r.no == |recs|
  {
    if recs == [] then Recommended(0, 0)
    else Recommend(Recommendations(recs[..|recs| - 1]), recs[|recs| - 1])
  }

  /** The histogram has the keys 1 to 5 and every rating seen, and each key counts exactly
      the reviews with that rating. */
  lemma {:induction false} HistogramCounts(ratings: seq<int>)
    ensures forall r :: r in Histogram(ratings) <==> (1 <= r <= 5 || r in ratings)
    ensures forall r :: r in Histogram(ratings) ==> Histogram(ratings)[r] == multiset(ratings)[r]
  {
    if ratings != [] {
      var init, last := ratings[..|ratings| - 1], ratings[|ratings| - 1];
      HistogramCounts(init);
      assert ratings == init + [last];
      assert multiset(ratings) == multiset(init) + multiset{last};
    }
  }

  /** When every rating is in 1 to 5, the five buckets add up to the number of reviews. */
  lemma {:induction false} HistogramTotal(ratings: seq<int>)
    requires forall i :: 0 <= i < |ratings| ==> 1 <= ratings[i] <= 5
    ensures Histogram(ratings).Keys == {1, 2, 3, 4, 5}
    ensures var h := Histogram(ratings); h[1] + h[2] + h[3] + h[4] + h[5] == |ratings|
  {
    if ratings != [] {
      HistogramTotal(ratings[..|ratings| - 1]);
    }
  }

  /** The histogram does not depend on the order in which the reviews are visited. */
  lemma HistogramOrderFree(a: seq<int>, b: seq<int>)
    requires multiset(a) == multiset(b)
    ensures Histogram(a) == Histogram(b)
  {
    HistogramCounts(a);
    HistogramCounts(b);
    var ha, hb := Histogram(a), Histogram(b);
    forall r ensures (r in ha <==> r in hb) && (r in ha ==> ha[r] == hb[r]) {
      assert r in a <==> r in multiset(a);
      assert r in b <==> r in multiset(b);
    }
    assert ha.Keys == hb.Keys;
  }

  /** yes counts the true flags, no the false ones, and together they count every review. */
  lemma {:induction false} RecommendationCounts(recs: seq<bool>)
    ensures Recommendations(recs).yes == multiset(recs)[true]
    ensures Recommendations(recs).no == multiset(recs)[false]
    ensures Recommendations(recs).yes + Recommendations(recs).no == |recs|
  {
    if recs != [] {
      var init, last := recs[..|recs| - 1], recs[|recs| - 1];
      RecommendationCounts(init);
      assert recs == init + [last];
      assert multiset(recs) == multiset(init) + multiset{last};
    }
  }

  /** The recommend counts do not depend on the order in which the reviews are visited. */
  lemma RecommendationsOrderFree(a: seq<bool>, b: seq<bool>)
    requires multiset(a) == multiset(b)
    ensures Recommendations(a) == Recommendations(b)
  {
    RecommendationCounts(a);
    RecommendationCounts(b);
  }

  /** The sum of every bucket of a histogram. */
  function BucketTotal(h: map<int, nat>): nat
    decreases |h.Keys|
  {
    if h.Keys == {} then 0
    else
      var k := Least(h.Keys);
      assert (h - {k}).Keys == h.Keys - {k};
      h[k] + BucketTotal(h - {k})
  }

  /** Any one bucket can be taken out of the total. */
  lemma {:induction false} TotalWithout(h: map<int, nat>, x: int)
    requires x in h
    ensures BucketTotal(h) == h[x] + BucketTotal(h - {x})
    decreases |h.Keys|
  {
    var m := Least(h.Keys);
    assert (h - {m}).Keys == h.Keys - {m};
    if m != x {
      var h' := h - {m};
      TotalWithout(h', x);
      var hx := h - {x};
      assert hx.Keys == h.Keys - {x};
      assert m in hx.Keys;
      assert Least(hx.Keys) in h.Keys;
      assert Least(hx.Keys) == m;
      assert hx - {m} == h' - {x};
    }
  }

  /** Counting one more review under any key raises the total by exactly one. */
  lemma BumpTotal(h: map<int, nat>, k: int)
    ensures BucketTotal(Bump(h, k)) == BucketTotal(h) + 1
  {
    var h' := Bump(h, k);
    TotalWithout(h', k);
    if k in h {
      TotalWithout(h, k);
      assert h' - {k} == h - {k};
    } else {
      assert h' - {k} == h;
    }
  }

  /** A histogram of zeros totals zero. */
  lemma {:induction false} ZeroTotal(h: map<int, nat>)
    requires forall k :: k in h ==> h[k] == 0
    ensures BucketTotal(h) == 0
    decreases |h.Keys|
  {
    if h.Keys != {} {
      var k := Least(h.Keys);
      assert (h - {k}).Keys == h.Keys - {k};
      ZeroTotal(h - {k});
    }
  }

  /** The buckets of the counting loop add up to the number of reviews, whatever the ratings. */
  lemma {:induction false} HistogramSize(ratings: seq<int>)
    ensures BucketTotal(Histogram(ratings)) == |ratings|
  {
    if ratings == [] {
      ZeroTotal(BaseRatings);
    } else {
      HistogramSize(ratings[..|ratings| - 1]);
      BumpTotal(Histogram(ratings[..|ratings| - 1]), ratings[|ratings| - 1]);
    }
  }
}

=== FILE: enrich.dfy ===
/** Record enrichment: a raw review row becomes a review document with its photos attached,
    and a characteristic observation is joined with its definition or dropped. */
module Enrich {
  import opened Records
  import opened Lookup

  /** processPhotos: a copy of the photo list keeping only each photo's id and url. */
  function ProcessPhotos(photos: seq<Photo>): (r: seq<Photo>)
    ensures r == photos
  {
    seq(|photos|, i requires 0 <= i < |photos| => Photo(photos[i].id, photos[i].url))
  }

  /** The photos looked up for a review id: its list, or `[]` when the id has none. */
  function PhotosFor(photosByReviewId: map<int, seq<Photo>>, reviewId: int): seq<Photo>
  {
    if reviewId in photosByReviewId then photosByReviewId[reviewId] else []
  }

  /** The review document built from one row of reviews.csv. */
  function EnrichReview(row: ReviewRow, photosByReviewId: map<int, seq<Photo>>): (r: Review)
    ensures r.reviewId == row.id && r.productId == row.productId && r.rating == row.rating
    ensures r.recommend <==> row.recommend == "true"
    ensures row.id !in photosByReviewId ==> r.photos == []
    ensures row.id in photosByReviewId ==> r.photos == photosByReviewId[row.id]
    ensures r.summary == row.summary && r.response == row.response && r.body == row.body
    ensures r.date == row.date && r.reviewerName == row.reviewerName && r.helpfulness == row.helpfulness
  {
    Review(
      row.productId, row.id, row.rating, row.summary, row.recommend == "true",
      row.response, row.body, row.date, row.reviewerName, row.helpfulness,
      ProcessPhotos(PhotosFor(photosByReviewId, row.id)))
  }

  /** Every row enriched, in input order. */
  function EnrichAll(rows: seq<ReviewRow>, photosByReviewId: map<int, seq<Photo>>): (docs: seq<Review>)
  {
    seq(|rows|, i requires 0 <= i < |rows| => EnrichReview(rows[i], photosByReviewId))
  }

  /** The reviews enriched so far grow by one row at a time. */
  lemma EnrichedPrefix(rows: seq<ReviewRow>, photosByReviewId: map<int, seq<Photo>>, i: nat)
    requires i < |rows|
    ensures EnrichAll(rows, photosByReviewId)[..i + 1] ==
      EnrichAll(rows, photosByReviewId)[..i] + [EnrichReview(rows[i], photosByReviewId)]
  {
  }

  /** With the photo table loaded from reviews_photos.csv, a review's photos are exactly the
      photo rows carrying its id, in file order (none when there are no such rows). */
  lemma EnrichedPhotosAreTheReviewsRows(row: ReviewRow, photoRows: seq<PhotoRow>)
    ensures EnrichReview(row, GroupInto(map[], PhotoPairs(photoRows))).photos == ValuesOf(PhotoPairs(photoRows), row.id)
  {
    GroupExactly(PhotoPairs(photoRows));
  }

  /** The observation kept for a row whose characteristic is defined. */
  function Observe(row: CharacteristicReviewRow, c: Characteristic): Observation
  {
    Observation(row.reviewId, row.characteristicId, c.productId, c.name, row.value)
  }

  /** The join/filter of characteristic_reviews.csv against characteristicsById:
      rows with an unknown characteristic id are dropped, the rest kept in input order. */
  function Resolve(rows: seq<CharacteristicReviewRow>, defs: map<int, Characteristic>): (obs: seq<Observation>)
    ensures |obs| <= |rows|
    ensures forall o :: o in obs ==>
      && o.characteristicId in defs
      && o.productId == defs[o.characteristicId].productId
      && o.name == defs[o.characteristicId].name
    ensures forall row :: row in rows && row.characteristicId in defs ==> Observe(row, defs[row.characteristicId]) in obs
    ensures forall o :: o in obs ==> exists row :: row in rows && row.characteristicId in defs && o == Observe(row, defs[row.characteristicId])
  {
    if rows == [] then []
    else
      var rest := Resolve(rows[1..], defs);
      assert forall row :: row in rows[1..] ==> row in rows;
      (if rows[0].characteristicId in defs then [Observe(rows[0], defs[rows[0].characteristicId])] else []) + rest
  }

  /** Resolving two consecutive parts of the file gives the two results one after the other. */
  lemma {:induction false} ResolveAppend(a: seq<CharacteristicReviewRow>, b: seq<CharacteristicReviewRow>, defs: map<int, Characteristic>)
    ensures Resolve(a + b, defs) == Resolve(a, defs) + Resolve(b, defs)
  {
    if a != [] {
      assert (a + b)[1..] == a[1..] + b;
      ResolveAppend(a[1..], b, defs);
    } else {
      assert a + b == b;
    }
  }

  /** One more row of the file: kept, joined with its definition, exactly when its
      characteristic id is defined. */
  lemma ResolveSnoc(rows: seq<CharacteristicReviewRow>, row: CharacteristicReviewRow, defs: map<int, Characteristic>)
    ensures Resolve(rows + [row], defs) ==
      Resolve(rows, defs) + (if row.characteristicId in defs then [Observe(row, defs[row.characteristicId])] else [])
  {
    ResolveAppend(rows, [row], defs);
    assert [row][1..] == [];
  }
}

=== FILE: etlmongo.dfy ===
/** The combined bulk load: lookup tables, review documents in batches of 5000, and the
    per-product characteristic averages grouped by characteristic name (sumChars). */
module EtlMongo {
  import opened Records
  import opened Keys
  import opened Lookup
  import opened Enrich
  import opened Batching
  import opened MetaCollection

  const ReviewBatchSize: nat := 5000

  /** Loads characteristics.csv, characteristic_reviews.csv and reviews_photos.csv, in that order,
      into fresh tables. */
  method LoadAllData(characteristics: seq<CharacteristicRow>, characteristicReviews: seq<CharacteristicReviewRow>, photos: seq<PhotoRow>)
    returns (tables: Tables)
    ensures fresh(tables)
    ensures tables.characteristicsById == Define(map[], characteristics)
    ensures tables.charReviewsByReviewId == GroupInto(map[], CharacteristicReviewPairs(characteristicReviews))
    ensures tables.photosByReviewId == GroupInto(map[], PhotoPairs(photos))
  {
    tables := new Tables();
    tables.LoadCharacteristics(characteristics);
    tables.LoadCharacteristicReviews(characteristicReviews);
    tables.LoadPhotos(photos);
  }

  /** Streams reviews.csv: each row is enriched and pushed onto the batch; a full batch is handed
      to insertMany and the batch reset; a non-empty remainder is inserted at end of stream.
      Returns the insertMany calls in order. */
  method ProcessReviews(rows: seq<ReviewRow>, photosByReviewId: map<int, seq<Photo>>) returns (inserts: seq<seq<Review>>)
    ensures inserts == Chunks(EnrichAll(rows, photosByReviewId), ReviewBatchSize)
  {
    ghost var enriched := EnrichAll(rows, photosByReviewId);
    var reviewBatch := new BatchWriter<Review>(ReviewBatchSize);
    inserts := [];
    var i := 0;
    while i < |rows|
      invariant 0 <= i <= |rows|
      invariant reviewBatch.Valid() && !reviewBatch.ended && reviewBatch.size == ReviewBatchSize
      invariant inserts == reviewBatch.log
      invariant reviewBatch.Received() == enriched[..i]
    {
      var review := EnrichReview(rows[i], photosByReviewId);
      EnrichedPrefix(rows, photosByReviewId, i);
      var flushed := reviewBatch.Push(review);
      if flushed.Some? {
        inserts := inserts + [flushed.value];
      }
      i := i + 1;
    }
    var last := reviewBatch.End();
    if last.Some? {
      inserts := inserts + [last.value];
    }
    assert enriched[..i] == enriched;
    ChunksUnique(inserts, ReviewBatchSize);
  }

  // ---------------------------------------------------------------------------------------
  // sumChars

  /** A running entry of summarizedChars[productId][name]. */
  datatype Tally = Tally(id: int, name: string, sum: int, count: nat)

  /** The position of the entry for `name`, or |tallies| when there is none yet. */
  function FindName(tallies: seq<Tally>, name: string): (k: nat)
    ensures k <= |tallies|
    ensures k < |tallies| ==> tallies[k].name == name
    ensures forall j :: 0 <= j < k ==> tallies[j].name != name
  {
    if tallies == [] then 0
    else if tallies[0].name == name then 0
    else 1 + FindName(tallies[1..], name)
  }

  /** The entries of a product, none when it has not been seen yet. */
  function TalliesOf(summarized: map<int, seq<Tally>>, productId: int): seq<Tally>
  {
    if productId in summarized then summarized[productId] else []
  }

  /** The product's entries after one observation of characteristic `c`: the entry for its name
      is created on first sight, then gets the value added and its count raised by one. */
  function Tallied(tallies: seq<Tally>, o: CharacteristicReview, c: Characteristic): seq<Tally>
  {
    var k := FindName(tallies, c.name);
    var entries := if k < |tallies| then tallies else tallies + [Tally(o.characteristicId, c.name, 0, 0)];
    Bumped(entries, k, o.value)
  }

  /** Entry `k` with `value` added to its sum and its count raised by one. */
  function Bumped(tallies: seq<Tally>, k: nat, value: int): seq<Tally>
    requires k < |tallies|
  {
    tallies[k := Tally(tallies[k].id, tallies[k].name, tallies[k].sum + value, tallies[k].count + 1)]
  }

  /** One pass of the inner loop body of sumChars. */
  function AddObservation(summarized: map<int, seq<Tally>>, o: CharacteristicReview, c: Characteristic): map<int, seq<Tally>>
  {
    summarized[c.productId := Tallied(TalliesOf(summarized, c.productId), o, c)]
  }

  /** Every observation's characteristic id is defined. */
  ghost predicate Resolved(obs: seq<CharacteristicReview>, defs: map<int, Characteristic>)
  {
    forall o :: o in obs ==> o.characteristicId in defs
  }

  /** summarizedChars after the observations are visited in order. */
  function SumAll(obs: seq<CharacteristicReview>, defs: map<int, Characteristic>): (s: map<int, seq<Tally>>)
    requires Resolved(obs, defs)
    ensures forall p :: p in s ==> s[p] != []
    ensures forall i :: 0 <= i < |obs| ==> defs[obs[i].characteristicId].productId in s
  {
    if obs == [] then map[]
    else
      var last := obs[|obs| - 1];
      AddObservation(SumAll(obs[..|obs| - 1], defs), last, defs[last.characteristicId])
  }

  /** Reference definition: the observations whose characteristic belongs to product `p` and is
      named `name`, in visiting order. */
  function Matching(obs: seq<CharacteristicReview>, defs: map<int, Characteristic>, p: int, name: string): seq<CharacteristicReview>
    requires Resolved(obs, defs)
  {
    if obs == [] then []
    else
      var last := obs[|obs| - 1];
      Matching(obs[..|obs| - 1], defs, p, name) + (if defs[last.characteristicId] == Characteristic(name, p) then [last] else [])
  }

  /** The sum of the observed values. */
  function SumValues(obs: seq<CharacteristicReview>): int
  {
    if obs == [] then 0 else SumValues(obs[..|obs| - 1]) + obs[|obs| - 1].value
  }

  /** Matching keeps exactly the observations of that product's characteristic of that name. */
  lemma {:induction false} MatchingMembers(obs: seq<CharacteristicReview>, defs: map<int, Characteristic>, p: int, name: string)
    requires Resolved(obs, defs)
    ensures forall o :: o in Matching(obs, defs, p, name) ==> o in obs && defs[o.characteristicId] == Characteristic(name, p)
    ensures forall o :: o in obs && defs[o.characteristicId] == Characteristic(name, p) ==> o in Matching(obs, defs, p, name)
  {
    if obs != [] {
      var init := obs[..|obs| - 1];
      MatchingMembers(init, defs, p, name);
      assert obs == init + [obs[|obs| - 1]];
    }
  }

  /** The tally accounts for exactly the matching observations: the id of the first one, their
      sum and their number. */
  ghost predicate Accounts(t: Tally, m: seq<CharacteristicReview>)
  {
    && m != []
    && t.id == m[0].characteristicId
    && t.sum == SumValues(m)
    && t.count == |m|
  }

  /** The entries of product `p` describe the visited observations `obs`: each accounts for the
      observations of its name, names are distinct, and every observed name has an entry. */
  ghost predicate DescribesProduct(t: seq<Tally>, obs: seq<CharacteristicReview>, defs: map<int, Characteristic>, p: int)
    requires Resolved(obs, defs)
  {
    && (forall k :: 0 <= k < |t| ==> Accounts(t[k], Matching(obs, defs, p, t[k].name)))
    && (forall k, l :: 0 <= k < l < |t| ==> t[k].name != t[l].name)
    && (forall name :: Matching(obs, defs, p, name) != [] ==> FindName(t, name) < |t|)
  }

  /** summarizedChars describes the visited observations `obs`. */
  ghost predicate Summarizes(s: map<int, seq<Tally>>, obs: seq<CharacteristicReview>, defs: map<int, Characteristic>)
    requires Resolved(obs, defs)
  {
    && (forall p :: p in s ==> s[p] != [])
    && (forall p :: DescribesProduct(TalliesOf(s, p), obs, defs, p))
  }

  /** Tallies with the same names have their names at the same positions. */
  lemma {:induction false} FindNameSameNames(a: seq<Tally>, b: seq<Tally>, name: string)
    requires |a| == |b|
    requires forall j :: 0 <= j < |a| ==> a[j].name == b[j].name
    ensures FindName(a, name) == FindName(b, name)
  {
  }

  /** FindName gives the first position holding `name`. */
  lemma {:induction false} FindNameUpTo(t: seq<Tally>, name: string, x: nat)
    requires x <= |t|
    requires x < |t| ==> t[x].name == name
    requires forall j :: 0 <= j < x ==> t[j].name != name
    ensures FindName(t, name) == x
  {
  }

  /** A new entry at the end does not move an existing entry of another name. */
  lemma {:induction false} FindNameSnoc(t: seq<Tally>, e: Tally, name: string)
    requires FindName(t, name) < |t|
    ensures FindName(t + [e], name) == FindName(t, name)
  {
    var x := FindName(t, name);
    assert (t + [e])[x] == t[x];
    FindNameUpTo(t + [e], name, x);
  }

  lemma {:induction false} MatchingSnoc(init: seq<CharacteristicReview>, o: CharacteristicReview, defs: map<int, Characteristic>, p: int, name: string)
    requires Resolved(init + [o], defs)
    ensures Resolved(init, defs)
    ensures defs[o.characteristicId] == Characteristic(name, p) ==> Matching(init + [o], defs, p, name) == Matching(init, defs, p, name) + [o]
    ensures defs[o.characteristicId] != Characteristic(name, p) ==> Matching(init + [o], defs, p, name) == Matching(init, defs, p, name)
  {
    assert (init + [o])[..|init|] == init;
    assert forall x :: x in init ==> x in init + [o];
  }

  /** A product the observation does not belong to keeps its description. */
  lemma {:induction false} OtherProductUnchanged(t: seq<Tally>, init: seq<CharacteristicReview>, o: CharacteristicReview, defs: map<int, Characteristic>, p: int)
    requires Resolved(init + [o], defs) && Resolved(init, defs)
    requires defs[o.characteristicId].productId != p
    requires DescribesProduct(t, init, defs, p)
    ensures DescribesProduct(t, init + [o], defs, p)
  {
    forall name
      ensures Matching(init + [o], defs, p, name) == Matching(init, defs, p, name)
    {
      MatchingSnoc(init, o, defs, p, name);
    }
  }

  /** The observation's own product keeps its description once its entry is bumped. */
  lemma {:induction false} TalliedDescribes(t0: seq<Tally>, init: seq<CharacteristicReview>, o: CharacteristicReview, defs: map<int, Characteristic>)
    requires Resolved(init + [o], defs) && Resolved(init, defs)
    requires DescribesProduct(t0, init, defs, defs[o.characteristicId].productId)
    ensures DescribesProduct(Tallied(t0, o, defs[o.characteristicId]), init + [o], defs, defs[o.characteristicId].productId)
  {
    var c := defs[o.characteristicId];
    if FindName(t0, c.name) < |t0| {
      TalliedExisting(t0, o, c);
      BumpExisting(t0, init, o, defs, FindName(t0, c.name));
    } else {
      OpenEntry(t0, init, o, defs);
    }
  }

  /** The name already has an entry: only that entry changes. */
  lemma {:induction false} BumpExisting(t0: seq<Tally>, init: seq<CharacteristicReview>, o: CharacteristicReview, defs: map<int, Characteristic>, k: nat)
    requires Resolved(init + [o], defs) && Resolved(init, defs)
    requires DescribesProduct(t0, init, defs, defs[o.characteristicId].productId)
    requires k < |t0| && t0[k].name == defs[o.characteristicId].name
    ensures DescribesProduct(Bumped(t0, k, o.value), init + [o], defs, defs[o.characteristicId].productId)
  {
    var c := defs[o.characteristicId];
    var P, N := c.productId, c.name;
    var t1 := Bumped(t0, k, o.value);
    BumpedAccounts(t0, init, o, defs, k);
    assert forall j :: 0 <= j < |t1| ==> t1[j].name == t0[j].name;
    assert forall j, l :: 0 <= j < l < |t1| ==> t1[j].name != t1[l].name;
    forall name | Matching(init + [o], defs, P, name) != []
      ensures FindName(t1, name) < |t1|
    {
      MatchingSnoc(init, o, defs, P, name);
      FindNameSameNames(t1, t0, name);
    }
  }

  lemma {:induction false} TalliedExisting(t0: seq<Tally>, o: CharacteristicReview, c: Characteristic)
    requires FindName(t0, c.name) < |t0|
    ensures Tallied(t0, o, c) == Bumped(t0, FindName(t0, c.name), o.value)
  {
  }

  /** After the bump every entry of the product still accounts for its observations. */
  lemma {:induction false} BumpedAccounts(t0: seq<Tally>, init: seq<CharacteristicReview>, o: CharacteristicReview, defs: map<int, Characteristic>, k: nat)
    requires Resolved(init + [o], defs) && Resolved(init, defs)
    requires DescribesProduct(t0, init, defs, defs[o.characteristicId].productId)
    requires k < |t0| && t0[k].name == defs[o.characteristicId].name
    ensures var t1 := Bumped(t0, k, o.value);
      forall j :: 0 <= j < |t1| ==> Accounts(t1[j], Matching(init + [o], defs, defs[o.characteristicId].productId, t1[j].name))
  {
    var c := defs[o.characteristicId];
    var P, N := c.productId, c.name;
    var t1 := Bumped(t0, k, o.value);
    forall j | 0 <= j < |t1|
      ensures Accounts(t1[j], Matching(init + [o], defs, P, t1[j].name))
    {
      MatchingSnoc(init, o, defs, P, t1[j].name);
      if j == k {
        BumpAccounts(t0[k], Matching(init, defs, P, N), o);
      } else {
        assert t0[j].name != N;
        assert Accounts(t0[j], Matching(init, defs, P, t0[j].name));
      }
    }
  }

  /** Adding one observation to a tally accounts for it. */
  lemma {:induction false} BumpAccounts(t: Tally, m: seq<CharacteristicReview>, o: CharacteristicReview)
    requires Accounts(t, m)
    ensures Accounts(Tally(t.id, t.name, t.sum + o.value, t.count + 1), m + [o])
  {
    assert (m + [o])[..|m|] == m;
  }

  /** The name is new to the product: an entry is appended. */
  lemma {:induction false} OpenEntry(t0: seq<Tally>, init: seq<CharacteristicReview>, o: CharacteristicReview, defs: map<int, Characteristic>)
    requires Resolved(init + [o], defs) && Resolved(init, defs)
    requires DescribesProduct(t0, init, defs, defs[o.characteristicId].productId)
    requires FindName(t0, defs[o.characteristicId].name) == |t0|
    ensures DescribesProduct(Tallied(t0, o, defs[o.characteristicId]), init + [o], defs, defs[o.characteristicId].productId)
  {
    var c := defs[o.characteristicId];
    var P, N := c.productId, c.name;
    var k := |t0|;
    var e := Tally(o.characteristicId, N, o.value, 1);
    var t1 := Tallied(t0, o, c);
    assert t1 == t0 + [e];
    forall j | 0 <= j < |t1|
      ensures Accounts(t1[j], Matching(init + [o], defs, P, t1[j].name))
    {
      MatchingSnoc(init, o, defs, P, t1[j].name);
      if j == k {
        assert Matching(init, defs, P, N) == [];
        assert Matching(init + [o], defs, P, N) == [o];
        assert SumValues([o]) == o.value by { assert [o][..0] == []; }
      } else {
        assert t1[j] == t0[j] && t0[j].name != N;
        assert Accounts(t0[j], Matching(init, defs, P, t0[j].name));
      }
    }
    forall name | Matching(init + [o], defs, P, name) != []
      ensures FindName(t1, name) < |t1|
    {
      MatchingSnoc(init, o, defs, P, name);
      if name == N {
        FindNameUpTo(t1, N, k);
      } else {
        FindNameSnoc(t0, e, name);
      }
    }
  }

  /** One observation more keeps the description exact. */
  lemma {:induction false} AddObservationSummarizes(s: map<int, seq<Tally>>, init: seq<CharacteristicReview>, o: CharacteristicReview, defs: map<int, Characteristic>)
    requires Resolved(init + [o], defs) && Resolved(init, defs)
    requires Summarizes(s, init, defs)
    ensures Summarizes(AddObservation(s, o, defs[o.characteristicId]), init + [o], defs)
  {
    var c := defs[o.characteristicId];
    var s1 := AddObservation(s, o, c);
    forall p
      ensures DescribesProduct(TalliesOf(s1, p), init + [o], defs, p)
    {
      if p == c.productId {
        TalliedDescribes(TalliesOf(s, p), init, o, defs);
      } else {
        OtherProductUnchanged(TalliesOf(s, p), init, o, defs, p);
      }
    }
  }

  /** summarizedChars, built observation by observation, describes all of them. */
  lemma {:induction false} SumAllSummarizes(obs: seq<CharacteristicReview>, defs: map<int, Characteristic>)
    requires Resolved(obs, defs)
    ensures Summarizes(SumAll(obs, defs), obs, defs)
  {
    if obs != [] {
      var init := obs[..|obs| - 1];
      assert obs == init + [obs[|obs| - 1]];
      MatchingSnoc(init, obs[|obs| - 1], defs, 0, "");
      SumAllSummarizes(init, defs);
      AddObservationSummarizes(SumAll(init, defs), init, obs[|obs| - 1], defs);
    }
  }

  // The first loop of sumChars walks charReviewsByReviewId in key order (ascending review id,
  // as for any integer-like object keys) and each review's list in file order.

  /** The lists of the given keys, one after the other. */
  function Concat(table: map<int, seq<CharacteristicReview>>, ks: seq<int>): seq<CharacteristicReview>
    requires forall i :: 0 <= i < |ks| ==> ks[i] in table
  {
    if ks == [] then [] else Concat(table, ks[..|ks| - 1]) + table[ks[|ks| - 1]]
  }

  /** The observations in the order the first loop of sumChars visits them. */
  ghost function Visit(table: map<int, seq<CharacteristicReview>>): seq<CharacteristicReview>
  {
    Concat(table, Ascending(table.Keys))
  }

  /** Every observation in the table names a defined characteristic. */
  ghost predicate AllResolved(table: map<int, seq<CharacteristicReview>>, defs: map<int, Characteristic>)
  {
    forall r, o :: r in table && o in table[r] ==> o.characteristicId in defs
  }

  /** Concat visits only observations of the table. */
  lemma {:induction false} ConcatMembers(table: map<int, seq<CharacteristicReview>>, ks: seq<int>)
    requires forall i :: 0 <= i < |ks| ==> ks[i] in table
    ensures forall o :: o in Concat(table, ks) ==> exists i :: 0 <= i < |ks| && o in table[ks[i]]
  {
    if ks != [] {
      var init := ks[..|ks| - 1];
      ConcatMembers(table, init);
      forall o | o in Concat(table, ks)
        ensures exists i :: 0 <= i < |ks| && o in table[ks[i]]
      {
        if o in Concat(table, init) {
          var i :| 0 <= i < |init| && o in table[init[i]];
          assert ks[i] == init[i];
        } else {
          assert o in table[ks[|ks| - 1]];
        }
      }
    }
  }

  lemma ConcatResolved(table: map<int, seq<CharacteristicReview>>, ks: seq<int>, defs: map<int, Characteristic>)
    requires forall i :: 0 <= i < |ks| ==> ks[i] in table
    requires AllResolved(table, defs)
    ensures Resolved(Concat(table, ks), defs)
  {
    ConcatMembers(table, ks);
    forall o | o in Concat(table, ks)
      ensures o.characteristicId in defs
    {
      var i :| 0 <= i < |ks| && o in table[ks[i]];
      var r := ks[i];
      assert r in table && o in table[r];
    }
  }

  /** One more observation of a review's list extends the fold by one step. */
  lemma {:induction false} SumAllSnoc(before: seq<CharacteristicReview>, rows: seq<CharacteristicReview>, j: nat, defs: map<int, Characteristic>)
    requires j < |rows|
    requires Resolved(before + rows[..j], defs)
    requires rows[j].characteristicId in defs
    ensures Resolved(before + rows[..j + 1], defs)
    ensures SumAll(before + rows[..j + 1], defs) == AddObservation(SumAll(before + rows[..j], defs), rows[j], defs[rows[j].characteristicId])
  {
    var seen := before + rows[..j + 1];
    assert seen == (before + rows[..j]) + [rows[j]];
    assert seen[..|seen| - 1] == before + rows[..j];
  }

  /** After a review's whole list the fold covers the keys visited so far. */
  lemma {:induction false} ConcatSnoc(table: map<int, seq<CharacteristicReview>>, visited: seq<int>, r: int)
    requires forall i :: 0 <= i < |visited| ==> visited[i] in table
    requires r in table
    ensures forall i :: 0 <= i < |visited + [r]| ==> (visited + [r])[i] in table
    ensures Concat(table, visited + [r]) == Concat(table, visited) + table[r]
  {
    assert (visited + [r])[..|visited|] == visited;
  }

  /** The first loop of sumChars: the running entries per product and characteristic name. */
  method Summarize(table: map<int, seq<CharacteristicReview>>, defs: map<int, Characteristic>) returns (summarized: map<int, seq<Tally>>)
    requires AllResolved(table, defs)
    ensures Resolved(Visit(table), defs)
    ensures summarized == SumAll(Visit(table), defs)
  {
    summarized := map[];
    var remaining := table.Keys;
    ghost var visited: seq<int> := [];
    assert visited + Ascending(remaining) == Ascending(table.Keys);
    while remaining != {}
      invariant Visiting(table, defs, visited, remaining)
      invariant summarized == SumAll(Concat(table, visited), defs)
      decreases |remaining|
    {
      var reviewId := NextKey(remaining);
      VisitNext(table, defs, visited, remaining, reviewId);
      summarized := CountReview(summarized, table[reviewId], defs, Concat(table, visited));
      visited := visited + [reviewId];
      remaining := remaining - {reviewId};
    }
    assert Ascending(remaining) == [];
    assert visited == Ascending(table.Keys);
  }

  /** The state of the first sumChars loop: `visited` are the review ids done, in ascending
      order, `remaining` the others, and everything visited is resolved. */
  ghost predicate Visiting(table: map<int, seq<CharacteristicReview>>, defs: map<int, Characteristic>, visited: seq<int>, remaining: set<int>)
  {
    && remaining <= table.Keys
    && Splits(table.Keys, visited, remaining)
    && (forall i :: 0 <= i < |visited| ==> visited[i] in table)
    && Resolved(Concat(table, visited), defs)
  }

  /** Visiting the least remaining review id keeps the loop state and extends the visit by
      that review's list. */
  lemma VisitNext(table: map<int, seq<CharacteristicReview>>, defs: map<int, Characteristic>, visited: seq<int>, remaining: set<int>, r: int)
    requires AllResolved(table, defs)
    requires Visiting(table, defs, visited, remaining)
    requires r in remaining && forall y :: y in remaining ==> r <= y
    ensures Visiting(table, defs, visited + [r], remaining - {r})
    ensures forall o :: o in table[r] ==> o.characteristicId in defs
    ensures Concat(table, visited + [r]) == Concat(table, visited) + table[r]
  {
    VisitOrder(table.Keys, visited, remaining, r);
    VisitStep(table, defs, visited, r);
  }

  /** The keys visited so far, followed by the keys left in ascending order, are all the keys
      in ascending order. */
  ghost predicate Splits(keys: set<int>, visited: seq<int>, remaining: set<int>)
  {
    visited + Ascending(remaining) == Ascending(keys)
  }

  /** Visiting the least remaining key moves it from the keys left to the keys visited. */
  lemma VisitOrder(keys: set<int>, visited: seq<int>, remaining: set<int>, r: int)
    requires Splits(keys, visited, remaining)
    requires r in remaining && forall y :: y in remaining ==> r <= y
    ensures Splits(keys, visited + [r], remaining - {r})
  {
    AscendingStep(remaining, r);
    ShiftOne(visited, r, Ascending(remaining - {r}), Ascending(keys));
  }

  lemma ShiftOne(visited: seq<int>, r: int, rest: seq<int>, whole: seq<int>)
    requires visited + ([r] + rest) == whole
    ensures (visited + [r]) + rest == whole
  {
    assert (visited + [r]) + rest == visited + ([r] + rest);
  }

  /** Visiting review `r` extends the visit by that review's list. */
  lemma VisitStep(table: map<int, seq<CharacteristicReview>>, defs: map<int, Characteristic>, visited: seq<int>, r: int)
    requires AllResolved(table, defs)
    requires forall i :: 0 <= i < |visited| ==> visited[i] in table
    requires r in table
    ensures forall o :: o in table[r] ==> o.characteristicId in defs
    ensures forall i :: 0 <= i < |visited + [r]| ==> (visited + [r])[i] in table
    ensures Concat(table, visited + [r]) == Concat(table, visited) + table[r]
    ensures Resolved(Concat(table, visited + [r]), defs)
  {
    ConcatSnoc(table, visited, r);
    ConcatResolved(table, visited + [r], defs);
  }

  /** The forEach over one review's characteristic reviews. */
  method CountReview(summarized: map<int, seq<Tally>>, charReviews: seq<CharacteristicReview>, defs: map<int, Characteristic>, ghost before: seq<CharacteristicReview>)
    returns (updated: map<int, seq<Tally>>)
    requires Resolved(before, defs)
    requires forall o :: o in charReviews ==> o.characteristicId in defs
    requires summarized == SumAll(before, defs)
    ensures Resolved(before + charReviews, defs)
    ensures updated == SumAll(before + charReviews, defs)
  {
    updated := summarized;
    assert before + charReviews[..0] == before;
    var j := 0;
    while j < |charReviews|
      invariant 0 <= j <= |charReviews|
      invariant Resolved(before + charReviews[..j], defs)
      invariant updated == SumAll(before + charReviews[..j], defs)
    {
      var charReview := charReviews[j];
      SumAllSnoc(before, charReviews, j, defs);
      updated := CountObservation(updated, charReview, defs[charReview.characteristicId]);
      j := j + 1;
    }
    assert charReviews[..j] == charReviews;
  }

  /** The inner loop body of sumChars on the running entries. */
  method CountObservation(summarized: map<int, seq<Tally>>, charReview: CharacteristicReview, characteristic: Characteristic)
    returns (updated: map<int, seq<Tally>>)
    ensures updated == AddObservation(summarized, charReview, characteristic)
  {
    updated := summarized;
    var productId := characteristic.productId;
    if productId !in updated {
      updated := updated[productId := []];
    }
    var tallies := updated[productId];
    assert tallies == TalliesOf(summarized, productId);
    var k := FindName(tallies, characteristic.name);
    if k == |tallies| {
      tallies := tallies + [Tally(charReview.characteristicId, characteristic.name, 0, 0)];
    }
    tallies := Bumped(tallies, k, charReview.value);
    assert tallies == Tallied(TalliesOf(summarized, productId), charReview, characteristic);
    updated := updated[productId := tallies];
  }

  // The second loop of sumChars turns each entry into {id, name, value: sum / count}.

  /** The update entry of one running entry. */
  function Average(t: Tally): CharacteristicSummary
    requires t.count > 0
  {
    CharacteristicSummary(t.id, t.name, t.sum as real / t.count as real)
  }

  /** The entry reports the matching observations: the id of the first and the mean value. */
  ghost predicate Averaged(e: CharacteristicSummary, m: seq<CharacteristicReview>)
  {
    && m != []
    && e.id == m[0].characteristicId
    && e.value == SumValues(m) as real / |m| as real
  }

  /** Every running entry has been counted at least once. */
  ghost predicate Counted(summarized: map<int, seq<Tally>>)
  {
    forall p, i :: p in summarized && 0 <= i < |summarized[p]| ==> summarized[p][i].count > 0
  }

  /** The second loop of sumChars: characteristicsUpdate, product by product and entry by entry. */
  method ToUpdate(summarized: map<int, seq<Tally>>) returns (update: map<int, seq<CharacteristicSummary>>)
    requires Counted(summarized)
    ensures update.Keys == summarized.Keys
    ensures forall p :: p in update ==> |update[p]| == |summarized[p]|
    ensures forall p, i :: p in update && 0 <= i < |update[p]| ==> update[p][i] == Average(summarized[p][i])
  {
    update := map[];
    var remaining := summarized.Keys;
    while remaining != {}
      invariant remaining <= summarized.Keys
      invariant update.Keys == summarized.Keys - remaining
      invariant forall p :: p in update ==> |update[p]| == |summarized[p]|
      invariant forall p, i :: p in update && 0 <= i < |update[p]| ==> update[p][i] == Average(summarized[p][i])
      decreases |remaining|
    {
      var productId := NextKey(remaining);
      var list := AverageEntries(summarized[productId]);
      update := update[productId := list];
      remaining := remaining - {productId};
    }
  }

  /** The inner loop of the second loop of sumChars: one update entry per running entry. */
  method AverageEntries(tallies: seq<Tally>) returns (list: seq<CharacteristicSummary>)
    requires forall i :: 0 <= i < |tallies| ==> tallies[i].count > 0
    ensures |list| == |tallies|
    ensures forall i :: 0 <= i < |tallies| ==> list[i] == Average(tallies[i])
  {
    list := [];
    var i := 0;
    while i < |tallies|
      invariant 0 <= i <= |tallies|
      invariant |list| == i
      invariant forall j :: 0 <= j < i ==> list[j] == Average(tallies[j])
    {
      list := list + [Average(tallies[i])];
      i := i + 1;
    }
  }

  /** The update ToUpdate produces from the running entries. */
  ghost predicate AveragesOf(update: map<int, seq<CharacteristicSummary>>, summarized: map<int, seq<Tally>>)
  {
    && Counted(summarized)
    && update.Keys == summarized.Keys
    && (forall p :: p in update ==> |update[p]| == |summarized[p]|)
    && (forall p, i :: p in update && 0 <= i < |update[p]| ==> update[p][i] == Average(summarized[p][i]))
  }

  /** sumChars: for every product with observations, one entry per characteristic name, carrying
      the id of the name's first observation and the mean of its values. */
  method SumChars(charReviewsByReviewId: map<int, seq<CharacteristicReview>>, characteristicsById: map<int, Characteristic>)
    returns (update: map<int, seq<CharacteristicSummary>>)
    requires AllResolved(charReviewsByReviewId, characteristicsById)
    ensures Resolved(Visit(charReviewsByReviewId), characteristicsById)
    ensures forall p :: p in update ==> update[p] != []
    ensures forall p, i :: p in update && 0 <= i < |update[p]| ==>
      Averaged(update[p][i], Matching(Visit(charReviewsByReviewId), characteristicsById, p, update[p][i].name))
    ensures forall p, i, j :: p in update && 0 <= i < j < |update[p]| ==> update[p][i].name != update[p][j].name
    ensures forall r, o :: r in charReviewsByReviewId && o in charReviewsByReviewId[r] ==>
      Listed(update, characteristicsById[o.characteristicId])
  {
    var summarized := Summarize(charReviewsByReviewId, characteristicsById);
    ghost var obs := Visit(charReviewsByReviewId);
    SumAllSummarizes(obs, characteristicsById);
    SummarizedCounted(summarized, obs, characteristicsById);
    update := ToUpdate(summarized);
    UpdateAveraged(update, summarized, obs, characteristicsById);
    forall r, o | r in charReviewsByReviewId && o in charReviewsByReviewId[r]
      ensures Listed(update, characteristicsById[o.characteristicId])
    {
      VisitHas(charReviewsByReviewId, r, o);
      UpdateListed(update, summarized, obs, characteristicsById, o);
    }
  }

  lemma SummarizedCounted(summarized: map<int, seq<Tally>>, obs: seq<CharacteristicReview>, defs: map<int, Characteristic>)
    requires Resolved(obs, defs) && Summarizes(summarized, obs, defs)
    ensures Counted(summarized)
  {
    forall p, i | p in summarized && 0 <= i < |summarized[p]|
      ensures summarized[p][i].count > 0
    {
      assert TalliesOf(summarized, p) == summarized[p];
      assert DescribesProduct(TalliesOf(summarized, p), obs, defs, p);
    }
  }

  /** The update's entries are non-empty per product, distinct by name, and each reports the
      observations of its name. */
  lemma UpdateAveraged(update: map<int, seq<CharacteristicSummary>>, summarized: map<int, seq<Tally>>, obs: seq<CharacteristicReview>, defs: map<int, Characteristic>)
    requires Resolved(obs, defs) && Summarizes(summarized, obs, defs)
    requires AveragesOf(update, summarized)
    ensures forall p :: p in update ==> update[p] != []
    ensures forall p, i :: p in update && 0 <= i < |update[p]| ==> Averaged(update[p][i], Matching(obs, defs, p, update[p][i].name))
    ensures forall p, i, j :: p in update && 0 <= i < j < |update[p]| ==> update[p][i].name != update[p][j].name
  {
    forall p | p in update
      ensures update[p] != []
      ensures forall i :: 0 <= i < |update[p]| ==> Averaged(update[p][i], Matching(obs, defs, p, update[p][i].name))
      ensures forall i, j :: 0 <= i < j < |update[p]| ==> update[p][i].name != update[p][j].name
    {
      assert TalliesOf(summarized, p) == summarized[p];
      assert DescribesProduct(TalliesOf(summarized, p), obs, defs, p);
    }
  }

  /** Every visited observation's characteristic is listed under its product. */
  lemma UpdateListed(update: map<int, seq<CharacteristicSummary>>, summarized: map<int, seq<Tally>>, obs: seq<CharacteristicReview>, defs: map<int, Characteristic>, o: CharacteristicReview)
    requires Resolved(obs, defs) && Summarizes(summarized, obs, defs)
    requires AveragesOf(update, summarized)
    requires o in obs
    ensures Listed(update, defs[o.characteristicId])
  {
    var c := defs[o.characteristicId];
    MatchingMembers(obs, defs, c.productId, c.name);
    assert o in Matching(obs, defs, c.productId, c.name);
    assert DescribesProduct(TalliesOf(summarized, c.productId), obs, defs, c.productId);
    var k := FindName(summarized[c.productId], c.name);
    assert update[c.productId][k].name == c.name;
  }

  /** The update has an entry for the characteristic's name under its product. */
  ghost predicate Listed(update: map<int, seq<CharacteristicSummary>>, c: Characteristic)
  {
    c.productId in update && exists i :: 0 <= i < |update[c.productId]| && update[c.productId][i].name == c.name
  }

  /** Every observation of the table is visited. */
  lemma {:induction false} VisitHas(table: map<int, seq<CharacteristicReview>>, r: int, o: CharacteristicReview)
    requires r in table && o in table[r]
    ensures o in Visit(table)
  {
    var ks := Ascending(table.Keys);
    assert r in ks;
    var i :| 0 <= i < |ks| && ks[i] == r;
    ConcatHas(table, ks, i, o);
  }

  lemma {:induction false} ConcatHas(table: map<int, seq<CharacteristicReview>>, ks: seq<int>, i: nat, o: CharacteristicReview)
    requires forall j :: 0 <= j < |ks| ==> ks[j] in table
    requires i < |ks| && o in table[ks[i]]
    ensures o in Concat(table, ks)
  {
    if i < |ks| - 1 {
      ConcatHas(table, ks[..|ks| - 1], i, o);
    }
  }

  /** The documents once the products in `done` have had their characteristics upserted. */
  ghost function Upserted(docs: map<int, ReviewsMeta>, update: map<int, seq<CharacteristicSummary>>, done: set<int>): map<int, ReviewsMeta>
    requires done <= update.Keys
  {
    map p | p in docs.Keys + done :: if p in done then WithCharacteristics(docs, p, update[p]) else docs[p]
  }

  lemma UpsertedStep(docs: map<int, ReviewsMeta>, update: map<int, seq<CharacteristicSummary>>, done: set<int>, p: int)
    requires done <= update.Keys && p in update && p !in done
    ensures Upserted(docs, update, done + {p})
      == Upserted(docs, update, done)[p := WithCharacteristics(Upserted(docs, update, done), p, update[p])]
  {
    var before := Upserted(docs, update, done);
    assert WithCharacteristics(before, p, update[p]) == WithCharacteristics(docs, p, update[p]);
  }

  /** The upsert loop at the end of the stream: each product's document gets the new
      characteristics; other documents are untouched. `failing` holds the products whose
      findOneAndUpdate the database rejects: the error is logged, that product is skipped and
      the loop goes on. `logged` is the set of products whose error was logged. */
  method WriteCharacteristics(store: ReviewsMetaCollection, update: map<int, seq<CharacteristicSummary>>, failing: set<int>)
    returns (logged: set<int>)
    modifies store
    ensures logged == update.Keys * failing
    ensures store.docs == Upserted(old(store.docs), update, update.Keys - failing)
  {
    ghost var docs0 := store.docs;
    var remaining := update.Keys;
    ghost var done: set<int> := {};
    logged := {};
    WritingStart(update.Keys, failing);
    UpsertedNone(docs0, update);
    while remaining != {}
      invariant Writing(update.Keys, failing, remaining, done, logged)
      invariant store.docs == Upserted(docs0, update, done)
      decreases |remaining|
    {
      var productId := NextKey(remaining);
      WritingStep(update.Keys, failing, remaining, done, logged, productId);
      if productId in failing {
        logged := logged + {productId};
      } else {
        UpsertedStep(docs0, update, done, productId);
        store.SetCharacteristics(productId, update[productId]);
        done := done + {productId};
      }
      remaining := remaining - {productId};
    }
    WritingEnd(update.Keys, failing, done, logged);
  }

  /** The state of the upsert loop: `done` holds the visited products whose write succeeded and
      `logged` those whose write failed. */
  ghost predicate Writing(keys: set<int>, failing: set<int>, remaining: set<int>, done: set<int>, logged: set<int>)
  {
    remaining <= keys && done == (keys - remaining) - failing && logged == (keys - remaining) * failing
  }

  lemma WritingStart(keys: set<int>, failing: set<int>)
    ensures Writing(keys, failing, keys, {}, {})
  {
    assert keys - keys == {};
  }

  /** Visiting one more product moves it to `done` or, when its write fails, to `logged`. */
  lemma WritingStep(keys: set<int>, failing: set<int>, remaining: set<int>, done: set<int>, logged: set<int>, k: int)
    requires Writing(keys, failing, remaining, done, logged) && k in remaining
    ensures done <= keys && k in keys && k !in done
    ensures k in failing ==> Writing(keys, failing, remaining - {k}, done, logged + {k})
    ensures k !in failing ==> Writing(keys, failing, remaining - {k}, done + {k}, logged)
  {
    assert keys - (remaining - {k}) == (keys - remaining) + {k};
  }

  lemma WritingEnd(keys: set<int>, failing: set<int>, done: set<int>, logged: set<int>)
    requires Writing(keys, failing, {}, done, logged)
    ensures done == keys - failing && logged == keys * failing
  {
    assert keys - {} == keys;
  }

  lemma UpsertedNone(docs: map<int, ReviewsMeta>, update: map<int, seq<CharacteristicSummary>>)
    ensures Upserted(docs, update, {}) == docs
  {
  }

  /** Upserting the products in `done` keeps every other document and gives each of them the
      new list; a product left out, such as one whose write failed, keeps its old document or
      stays absent. */
  lemma UpsertedDocs(docs: map<int, ReviewsMeta>, update: map<int, seq<CharacteristicSummary>>, done: set<int>)
    requires done <= update.Keys
    ensures Upserted(docs, update, done).Keys == docs.Keys + done
    ensures forall p :: p in done ==> Upserted(docs, update, done)[p].characteristics == update[p]
    ensures forall p :: p in done && p in docs ==>
      Upserted(docs, update, done)[p].ratings == docs[p].ratings
      && Upserted(docs, update, done)[p].recommended == docs[p].recommended
    ensures forall p :: p in done && p !in docs ==> Upserted(docs, update, done)[p].ratings.None?
    ensures forall p :: p in docs && p !in done ==> Upserted(docs, update, done)[p] == docs[p]
  {
  }

  /** Every characteristic review names a characteristic of characteristics.csv. */
  ghost predicate Referenced(characteristics: seq<CharacteristicRow>, characteristicReviews: seq<CharacteristicReviewRow>)
  {
    forall r :: r in characteristicReviews ==> exists c :: c in characteristics && c.id == r.characteristicId
  }

  /** With every reference defined, the loaded tables let sumChars resolve every observation. */
  lemma LoadedResolved(characteristics: seq<CharacteristicRow>, characteristicReviews: seq<CharacteristicReviewRow>)
    requires Referenced(characteristics, characteristicReviews)
    ensures AllResolved(GroupInto(map[], CharacteristicReviewPairs(characteristicReviews)), Define(map[], characteristics))
  {
    var pairs := CharacteristicReviewPairs(characteristicReviews);
    var table := GroupInto(map[], pairs);
    var defs := Define(map[], characteristics);
    GroupExactly(pairs);
    DefinedIds(map[], characteristics);
    forall k: int, o: CharacteristicReview | k in table && o in table[k]
      ensures o.characteristicId in defs
    {
      ValuesOfMembers(pairs, k);
      assert (k, o) in pairs;
      var i :| 0 <= i < |pairs| && pairs[i] == (k, o);
      assert characteristicReviews[i] in characteristicReviews;
      var c :| c in characteristics && c.id == characteristicReviews[i].characteristicId;
      assert c.id in (set r | r in characteristics :: r.id);
    }
  }

  /** The whole script: load the lookup tables, stream the reviews into batched inserts, then
      upsert every product's characteristic averages. */
  method Run(characteristics: seq<CharacteristicRow>, characteristicReviews: seq<CharacteristicReviewRow>, photos: seq<PhotoRow>,
             reviews: seq<ReviewRow>, store: ReviewsMetaCollection, failing: set<int>)
    returns (inserts: seq<seq<Review>>, update: map<int, seq<CharacteristicSummary>>, logged: set<int>)
    requires Referenced(characteristics, characteristicReviews)
    modifies store
    ensures inserts == Chunks(EnrichAll(reviews, GroupInto(map[], PhotoPairs(photos))), ReviewBatchSize)
    ensures forall p :: p in update ==> update[p] != []
    ensures var table, defs := GroupInto(map[], CharacteristicReviewPairs(characteristicReviews)), Define(map[], characteristics);
      && Resolved(Visit(table), defs)
      && (forall p, i :: p in update && 0 <= i < |update[p]| ==> Averaged(update[p][i], Matching(Visit(table), defs, p, update[p][i].name)))
    ensures logged == update.Keys * failing
    ensures store.docs == Upserted(old(store.docs), update, update.Keys - failing)
  {
    var tables := LoadAllData(characteristics, characteristicReviews, photos);
    inserts := ProcessReviews(reviews, tables.photosByReviewId);
    LoadedResolved(characteristics, characteristicReviews);
    update := SumChars(tables.charReviewsByReviewId, tables.characteristicsById);
    logged := WriteCharacteristics(store, update, failing);
  }
}

=== FILE: keys.dfy ===
/** The order in which JavaScript enumerates the non-negative integer (array-index) keys of an
    object: ascending. The model applies this rule to every integer key. */
module Keys {

  /** A non-empty set has an element. */
  lemma Inhabited(s: set<int>)
    requires s != {}
    ensures exists x :: x in s
  {
    if forall z :: z !in s {
      assert false;
    }
  }

  /** A non-empty set of integers has a least element. */
  lemma {:induction false} HasLeast(s: set<int>)
    requires s != {}
    ensures exists m :: m in s && forall y :: y in s ==> m <= y
    decreases |s|
  {
    Inhabited(s);
    var x :| x in s;
    if s != {x} {
      HasLeast(s - {x});
      var r :| r in s - {x} && forall y :: y in s - {x} ==> r <= y;
      assert forall y :: y in s ==> y == x || y in s - {x};
      if x < r {
        assert forall y :: y in s ==> x <= y;
      } else {
        assert forall y :: y in s ==> r <= y;
      }
    } else {
      assert forall y :: y in s ==> x <= y;
    }
  }

  /** The least element of a non-empty set of integers. */
  function Least(s: set<int>): (m: int)
    requires s != {}
    ensures m in s
    ensures forall y :: y in s ==> m <= y
  {
    HasLeast(s);
    var m :| m in s && forall y :: y in s ==> m <= y;
    m
  }

  /** The keys of `s`, each once, in ascending order. */
  function Ascending(s: set<int>): (ks: seq<int>)
    ensures |ks| == |s|
    ensures forall i :: 0 <= i < |ks| ==> ks[i] in s
    ensures forall y :: y in s ==> y in ks
    ensures forall i, j :: 0 <= i < j < |ks| ==> ks[i] < ks[j]
    decreases |s|
  {
    if s == {} then []
    else
      var m := Least(s);
      var rest := Ascending(s - {m});
      PrependLeast(s, m, rest);
      [m] + rest
  }

  /** Putting the least key in front of the ascending order of the others keeps it ascending
      and covering `s`. */
  lemma PrependLeast(s: set<int>, m: int, rest: seq<int>)
    requires m in s && forall y :: y in s ==> m <= y
    requires |rest| == |s - {m}|
    requires forall i :: 0 <= i < |rest| ==> rest[i] in s - {m}
    requires forall y :: y in s - {m} ==> y in rest
    requires forall i, j :: 0 <= i < j < |rest| ==> rest[i] < rest[j]
    ensures |[m] + rest| == |s|
    ensures forall i :: 0 <= i < |[m] + rest| ==> ([m] + rest)[i] in s
    ensures forall y :: y in s ==> y in [m] + rest
    ensures forall i, j :: 0 <= i < j < |[m] + rest| ==> ([m] + rest)[i] < ([m] + rest)[j]
  {
    var ks := [m] + rest;
    assert forall i :: 0 < i < |ks| ==> ks[i] == rest[i - 1];
    forall i | 0 <= i < |rest|
      ensures m < rest[i]
    {
      assert rest[i] in s - {m};
    }
    forall y | y in s
      ensures y in ks
    {
      if y != m {
        assert y in s - {m};
      }
    }
  }

  /** Removing the least key takes the first element off the ascending order. */
  lemma AscendingStep(s: set<int>, k: int)
    requires k in s
    requires forall y :: y in s ==> k <= y
    ensures Ascending(s) == [k] + Ascending(s - {k})
  {
    assert Least(s) == k;
  }

  /** The next key a `for ... in` loop over integer-like keys visits: the least one left. */
  method NextKey(remaining: set<int>) returns (k: int)
    requires remaining != {}
    ensures k in remaining
    ensures forall y :: y in remaining ==> k <= y
    ensures |remaining - {k}| < |remaining|
  {
    k := Least(remaining);
  }
}

=== FILE: lookup.dfy ===
/** The in-memory lookup tables built from the reference files before reviews stream in:
    characteristicsById (last write wins), charReviewsByReviewId and photosByReviewId
    (one list per review id, in file order). */
module Lookup {
  import opened Records

  /** One row callback on a grouped table: push `v` onto the list under `k`, creating it on first sight. */
  function Push<V>(table: map<int, seq<V>>, k: int, v: V): map<int, seq<V>>
  {
    table[k := (if k in table then table[k] else []) + [v]]
  }

  /** The table after the (key, value) pairs are pushed one by one, in order. */
  function GroupInto<V>(table: map<int, seq<V>>, pairs: seq<(int, V)>): (t: map<int, seq<V>>)
    ensures forall i :: 0 <= i < |pairs| ==> pairs[i].0 in t
    ensures forall k :: k in table ==> k in t && table[k] <= t[k]
    decreases |pairs|
  {
    if pairs == [] then table
    else
      var last := pairs[|pairs| - 1];
      Push(GroupInto(table, pairs[..|pairs| - 1]), last.0, last.1)
  }

  /** Reference definition: the values paired with key `k`, in input order. */
  function ValuesOf<V>(pairs: seq<(int, V)>, k: int): seq<V>
  {
    if pairs == [] then []
    else (if pairs[0].0 == k then [pairs[0].1] else []) + ValuesOf(pairs[1..], k)
  }

  lemma {:induction false} ValuesOfSnoc<V>(pairs: seq<(int, V)>, p: (int, V), k: int)
    ensures ValuesOf(pairs + [p], k) == ValuesOf(pairs, k) + (if p.0 == k then [p.1] else [])
  {
    if pairs != [] {
      assert (pairs + [p])[1..] == pairs[1..] + [p];
      ValuesOfSnoc(pairs[1..], p, k);
    }
  }

  /** Every value listed under `k` was paired with `k`. */
  lemma {:induction false} ValuesOfMembers<V>(pairs: seq<(int, V)>, k: int)
    ensures forall v :: v in ValuesOf(pairs, k) ==> (k, v) in pairs
  {
    if pairs != [] {
      ValuesOfMembers(pairs[1..], k);
      assert forall q :: q in pairs[1..] ==> q in pairs;
    }
  }

  /** Grouping from an empty table: the key `k` is present exactly when some pair carries it,
      and its list holds exactly the values paired with `k`, in input order. */
  lemma {:induction false} GroupExactly<V>(pairs: seq<(int, V)>)
    ensures forall k :: k in GroupInto(map[], pairs) <==> ValuesOf(pairs, k) != []
    ensures forall k :: k in GroupInto(map[], pairs) ==> GroupInto(map[], pairs)[k] == ValuesOf(pairs, k)
  {
    if pairs != [] {
      var init, last := pairs[..|pairs| - 1], pairs[|pairs| - 1];
      GroupExactly(init);
      assert pairs == init + [last];
      forall k
        ensures ValuesOf(pairs, k) == ValuesOf(init, k) + (if last.0 == k then [last.1] else [])
      {
        ValuesOfSnoc(init, last, k);
      }
    }
  }

  /** Loading a file in two parts is loading it at once. */
  lemma {:induction false} GroupAppend<V>(table: map<int, seq<V>>, a: seq<(int, V)>, b: seq<(int, V)>)
    ensures GroupInto(table, a + b) == GroupInto(GroupInto(table, a), b)
    decreases |b|
  {
    if b != [] {
      assert (a + b)[..|a + b| - 1] == a + b[..|b| - 1];
      GroupAppend(table, a, b[..|b| - 1]);
    } else {
      assert a + b == a;
    }
  }

  /** The pairs the characteristic_reviews.csv callback pushes. */
  function CharacteristicReviewPairs(rows: seq<CharacteristicReviewRow>): seq<(int, CharacteristicReview)>
  {
    seq(|rows|, i requires 0 <= i < |rows| =>
      (rows[i].reviewId, CharacteristicReview(rows[i].characteristicId, rows[i].value)))
  }

  /** The pairs the reviews_photos.csv callback pushes. */
  function PhotoPairs(rows: seq<PhotoRow>): seq<(int, Photo)>
  {
    seq(|rows|, i requires 0 <= i < |rows| => (rows[i].reviewId, Photo(rows[i].id, rows[i].url)))
  }

  /** characteristicsById after the rows are stored one by one, each overwriting its id. */
  function Define(table: map<int, Characteristic>, rows: seq<CharacteristicRow>): (d: map<int, Characteristic>)
    ensures forall i :: 0 <= i < |rows| ==> rows[i].id in d
    ensures forall id :: id in table ==> id in d
    ensures rows != [] ==> d[rows[|rows| - 1].id] == Characteristic(rows[|rows| - 1].name, rows[|rows| - 1].productId)
    decreases |rows|
  {
    if rows == [] then table
    else
      var last := rows[|rows| - 1];
      Define(table, rows[..|rows| - 1])[last.id := Characteristic(last.name, last.productId)]
  }

  /** Last write wins: a row with no later row of the same id gives that id's entry. */
  lemma {:induction false} LastWriteWins(table: map<int, Characteristic>, rows: seq<CharacteristicRow>, i: int)
    requires 0 <= i < |rows|
    requires forall j :: i < j < |rows| ==> rows[j].id != rows[i].id
    ensures rows[i].id in Define(table, rows)
    ensures Define(table, rows)[rows[i].id] == Characteristic(rows[i].name, rows[i].productId)
  {
    if i < |rows| - 1 {
      LastWriteWins(table, rows[..|rows| - 1], i);
    }
  }

  /** The ids defined are those already present plus those of the rows; an id no row
      mentions keeps its previous entry. */
  lemma {:induction false} DefinedIds(table: map<int, Characteristic>, rows: seq<CharacteristicRow>)
    ensures Define(table, rows).Keys == table.Keys + set r | r in rows :: r.id
    ensures forall id :: id in table && id !in (set r | r in rows :: r.id) ==> Define(table, rows)[id] == table[id]
    decreases |rows|
  {
    if rows != [] {
      var init, last := rows[..|rows| - 1], rows[|rows| - 1];
      DefinedIds(table, init);
      IdsSnoc(rows);
      var before := Define(table, init);
      assert Define(table, rows) == before[last.id := Characteristic(last.name, last.productId)];
    }
  }

  /** The ids of a non-empty file are those of all but its last row plus the last row's id. */
  lemma IdsSnoc(rows: seq<CharacteristicRow>)
    requires rows != []
    ensures (set r | r in rows :: r.id) == (set r | r in rows[..|rows| - 1] :: r.id) + {rows[|rows| - 1].id}
  {
    assert rows == rows[..|rows| - 1] + [rows[|rows| - 1]];
  }

  /** Loading characteristics in batches is loading them at once. */
  lemma {:induction false} DefineAppend(table: map<int, Characteristic>, a: seq<CharacteristicRow>, b: seq<CharacteristicRow>)
    ensures Define(table, a + b) == Define(Define(table, a), b)
    decreases |b|
  {
    if b != [] {
      assert (a + b)[..|a + b| - 1] == a + b[..|b| - 1];
      DefineAppend(table, a, b[..|b| - 1]);
    } else {
      assert a + b == a;
    }
  }

  /** The three module-level dictionaries the row callbacks fill in place. */
  class Tables {
    var characteristicsById: map<int, Characteristic>
    var charReviewsByReviewId: map<int, seq<CharacteristicReview>>
    var photosByReviewId: map<int, seq<Photo>>

    constructor ()
      ensures characteristicsById == map[] && charReviewsByReviewId == map[] && photosByReviewId == map[]
    {
      characteristicsById, charReviewsByReviewId, photosByReviewId := map[], map[], map[];
    }

    /** The characteristics.csv row callback. */
    method AddCharacteristic(row: CharacteristicRow)
      modifies this
      ensures characteristicsById == old(characteristicsById)[row.id := Characteristic(row.name, row.productId)]
      ensures charReviewsByReviewId == old(charReviewsByReviewId) && photosByReviewId == old(photosByReviewId)
    {
      characteristicsById := characteristicsById[row.id := Characteristic(row.name, row.productId)];
    }

    /** The characteristic_reviews.csv row callback. */
    method AddCharacteristicReview(row: CharacteristicReviewRow)
      modifies this
      ensures charReviewsByReviewId == Push(old(charReviewsByReviewId), row.reviewId, CharacteristicReview(row.characteristicId, row.value))
      ensures characteristicsById == old(characteristicsById) && photosByReviewId == old(photosByReviewId)
    {
      if row.reviewId !in charReviewsByReviewId {
        charReviewsByReviewId := charReviewsByReviewId[row.reviewId := []];
      }
      charReviewsByReviewId := charReviewsByReviewId[row.reviewId :=
        charReviewsByReviewId[row.reviewId] + [CharacteristicReview(row.characteristicId, row.value)]];
    }

    /** The reviews_photos.csv row callback. */
    method AddPhoto(row: PhotoRow)
      modifies this
      ensures photosByReviewId == Push(old(photosByReviewId), row.reviewId, Photo(row.id, row.url))
      ensures characteristicsById == old(characteristicsById) && charReviewsByReviewId == old(charReviewsByReviewId)
    {
      if row.reviewId !in photosByReviewId {
        photosByReviewId := photosByReviewId[row.reviewId := []];
      }
      photosByReviewId := photosByReviewId[row.reviewId := photosByReviewId[row.reviewId] + [Photo(row.id, row.url)]];
    }

    /** Streams characteristics.csv through AddCharacteristic. */
    method LoadCharacteristics(rows: seq<CharacteristicRow>)
      modifies this
      ensures characteristicsById == Define(old(characteristicsById), rows)
      ensures charReviewsByReviewId == old(charReviewsByReviewId) && photosByReviewId == old(photosByReviewId)
    {
      var i := 0;
      while i < |rows|
        invariant 0 <= i <= |rows|
        invariant characteristicsById == Define(old(characteristicsById), rows[..i])
        invariant charReviewsByReviewId == old(charReviewsByReviewId) && photosByReviewId == old(photosByReviewId)
      {
        assert rows[..i + 1][..i] == rows[..i];
        AddCharacteristic(rows[i]);
        i := i + 1;
      }
      assert rows[..i] == rows;
    }

    /** Streams characteristic_reviews.csv through AddCharacteristicReview. */
    method LoadCharacteristicReviews(rows: seq<CharacteristicReviewRow>)
      modifies this
      ensures charReviewsByReviewId == GroupInto(old(charReviewsByReviewId), CharacteristicReviewPairs(rows))
      ensures characteristicsById == old(characteristicsById) && photosByReviewId == old(photosByReviewId)
    {
      var i := 0;
      while i < |rows|
        invariant 0 <= i <= |rows|
        invariant charReviewsByReviewId == GroupInto(old(charReviewsByReviewId), CharacteristicReviewPairs(rows)[..i])
        invariant characteristicsById == old(characteristicsById) && photosByReviewId == old(photosByReviewId)
      {
        assert CharacteristicReviewPairs(rows)[..i + 1][..i] == CharacteristicReviewPairs(rows)[..i];
        AddCharacteristicReview(rows[i]);
        i := i + 1;
      }
      assert CharacteristicReviewPairs(rows)[..i] == CharacteristicReviewPairs(rows);
    }

    /** Streams reviews_photos.csv through AddPhoto. */
    method LoadPhotos(rows: seq<PhotoRow>)
      modifies this
      ensures photosByReviewId == GroupInto(old(photosByReviewId), PhotoPairs(rows))
      ensures characteristicsById == old(characteristicsById) && charReviewsByReviewId == old(charReviewsByReviewId)
    {
      var i := 0;
      while i < |rows|
        invariant 0 <= i <= |rows|
        invariant photosByReviewId == GroupInto(old(photosByReviewId), PhotoPairs(rows)[..i])
        invariant characteristicsById == old(characteristicsById) && charReviewsByReviewId == old(charReviewsByReviewId)
      {
        assert PhotoPairs(rows)[..i + 1][..i] == PhotoPairs(rows)[..i];
        AddPhoto(rows[i]);
        i := i + 1;
      }
      assert PhotoPairs(rows)[..i] == PhotoPairs(rows);
    }
  }
}

=== FILE: meta_collection.dfy ===
/** The ReviewsMeta collection written by the bulk-load scripts, seen as an in-memory map from
    product id to document. */
module MetaCollection {
  import opened Records

  /** A ReviewsMeta document of the bulk-load schema; a field never written is absent. */
  datatype ReviewsMeta = ReviewsMeta(
    ratings: Option<map<int, nat>>,
    recommended: Option<Recommended>,
    characteristics: seq<CharacteristicSummary>)

  /** The product's document after `$set: {characteristics}` with upsert: an existing document
      keeps its other fields, a new one has only the characteristics. */
  function WithCharacteristics(docs: map<int, ReviewsMeta>, productId: int, chars: seq<CharacteristicSummary>): ReviewsMeta
  {
    if productId in docs then docs[productId].(characteristics := chars)
    else ReviewsMeta(None, None, chars)
  }

  class ReviewsMetaCollection {
    var docs: map<int, ReviewsMeta>

    constructor (docs: map<int, ReviewsMeta>)
      ensures this.docs == docs
    {
      this.docs := docs;
    }

    /** findOneAndUpdate({product_id}, {$set: {characteristics}}, {upsert: true}). */
    method SetCharacteristics(productId: int, chars: seq<CharacteristicSummary>)
      modifies this
      ensures docs == old(docs)[productId := WithCharacteristics(old(docs), productId, chars)]
    {
      docs := docs[productId := WithCharacteristics(docs, productId, chars)];
    }

    /** updateOne({product_id}, {$set: {ratings, recommended, characteristics}}, {upsert: true}). */
    method SetSummary(productId: int, ratings: map<int, nat>, recommended: Recommended, chars: seq<CharacteristicSummary>)
      modifies this
      ensures docs == old(docs)[productId := ReviewsMeta(Some(ratings), Some(recommended), chars)]
    {
      docs := docs[productId := ReviewsMeta(Some(ratings), Some(recommended), chars)];
    }
  }
}

=== FILE: meta_etl.dfy ===
/** The metadata recomputation script: characteristics and characteristic reviews are read in
    batches through a shared loader, then every product found in the Review collection gets its
    rating histogram, recommend counts and per-characteristic averages upserted. */
module MetaEtl {
  import opened Records
  import opened Keys
  import opened Lookup
  import opened Enrich
  import opened Batching
  import opened Counts
  import opened MetaCollection

  const CsvBatchSize: nat := 5000

  /** loadData: rows are gathered into a batch; when the batch reaches `batchSize` it is handed
      to onEachBatch and reset, and a non-empty remainder is handed over at end of stream.
      Returns the onEachBatch calls in order. A batch size of 0 behaves like 1, since the
      length test `>= batchSize` then holds after every row. */
  method LoadData<T>(rows: seq<T>, batchSize: nat) returns (batches: seq<seq<T>>)
    ensures batches == Chunks(rows, if batchSize == 0 then 1 else batchSize)
    ensures Flatten(batches) == rows
  {
    var size := if batchSize == 0 then 1 else batchSize;
    var batch := new BatchWriter<T>(size);
    batches := [];
    var i := 0;
    while i < |rows|
      invariant 0 <= i <= |rows|
      invariant batch.Valid() && !batch.ended && batch.size == size
      invariant batches == batch.log
      invariant batch.Received() == rows[..i]
    {
      assert rows[..i + 1] == rows[..i] + [rows[i]];
      var flushed := batch.Push(rows[i]);
      if flushed.Some? {
        batches := batches + [flushed.value];
      }
      i := i + 1;
    }
    var last := batch.End();
    if last.Some? {
      batches := batches + [last.value];
    }
    assert rows[..i] == rows;
    ChunksUnique(batches, size);
  }

  /** The onEachBatch callback of loadCharsData. */
  method DefineBatch(characteristicsById: map<int, Characteristic>, batch: seq<CharacteristicRow>)
    returns (defined: map<int, Characteristic>)
    ensures defined == Define(characteristicsById, batch)
  {
    defined := characteristicsById;
    var i := 0;
    while i < |batch|
      invariant 0 <= i <= |batch|
      invariant defined == Define(characteristicsById, batch[..i])
    {
      assert batch[..i + 1][..i] == batch[..i];
      defined := defined[batch[i].id := Characteristic(batch[i].name, batch[i].productId)];
      i := i + 1;
    }
    assert batch[..i] == batch;
  }

  /** loadCharsData: characteristics.csv, batch by batch, into characteristicsById (last row of
      an id wins). */
  method LoadCharsData(rows: seq<CharacteristicRow>) returns (characteristicsById: map<int, Characteristic>)
    ensures characteristicsById == Define(map[], rows)
  {
    var batches := LoadData(rows, CsvBatchSize);
    characteristicsById := map[];
    var b := 0;
    while b < |batches|
      invariant 0 <= b <= |batches|
      invariant characteristicsById == Define(map[], Flatten(batches[..b]))
    {
      assert batches[..b + 1] == batches[..b] + [batches[b]];
      FlattenSnoc(batches[..b], batches[b]);
      DefineAppend(map[], Flatten(batches[..b]), batches[b]);
      characteristicsById := DefineBatch(characteristicsById, batches[b]);
      b := b + 1;
    }
    assert batches[..b] == batches;
  }

  /** The onEachBatch callback of loadCharsReviewsData. */
  method ResolveBatch(characteristics: seq<Observation>, batch: seq<CharacteristicReviewRow>, characteristicsById: map<int, Characteristic>)
    returns (extended: seq<Observation>)
    ensures extended == characteristics + Resolve(batch, characteristicsById)
  {
    extended := characteristics;
    var i := 0;
    assert Resolve(batch[..0], characteristicsById) == [];
    while i < |batch|
      invariant 0 <= i <= |batch|
      invariant extended == characteristics + Resolve(batch[..i], characteristicsById)
    {
      var row := batch[i];
      assert batch[..i + 1] == batch[..i] + [row];
      ResolveSnoc(batch[..i], row, characteristicsById);
      if row.characteristicId in characteristicsById {
        var characteristic := characteristicsById[row.characteristicId];
        extended := extended + [Observe(row, characteristic)];
      }
      i := i + 1;
    }
    assert batch[..i] == batch;
  }

  /** loadCharsReviewsData: characteristic_reviews.csv, batch by batch, joined with
      characteristicsById; rows of an unknown characteristic are dropped. */
  method LoadCharsReviewsData(rows: seq<CharacteristicReviewRow>, characteristicsById: map<int, Characteristic>)
    returns (characteristics: seq<Observation>)
    ensures characteristics == Resolve(rows, characteristicsById)
  {
    var batches := LoadData(rows, CsvBatchSize);
    characteristics := [];
    var b := 0;
    while b < |batches|
      invariant 0 <= b <= |batches|
      invariant characteristics == Resolve(Flatten(batches[..b]), characteristicsById)
    {
      assert batches[..b + 1] == batches[..b] + [batches[b]];
      FlattenSnoc(batches[..b], batches[b]);
      ResolveAppend(Flatten(batches[..b]), batches[b], characteristicsById);
      characteristics := ResolveBatch(characteristics, batches[b], characteristicsById);
      b := b + 1;
    }
    assert batches[..b] == batches;
  }

  // Per product: the reduce over the product's characteristic observations, keyed by
  // characteristic id.

  /** An entry of charsForProduct. */
  datatype IdTally = IdTally(sum: int, count: nat, name: string)

  /** The product's observations, in order (the filter on product_id). */
  function ForProduct(obs: seq<Observation>, productId: int): seq<Observation>
  {
    if obs == [] then []
    else ForProduct(obs[..|obs| - 1], productId) + (if obs[|obs| - 1].productId == productId then [obs[|obs| - 1]] else [])
  }

  /** One step of the reduce: the entry is created with the observation's name on first sight,
      then gets the value added and its count raised by one. */
  function Accumulate(acc: map<int, IdTally>, c: Observation): map<int, IdTally>
  {
    var t := if c.characteristicId in acc then acc[c.characteristicId] else IdTally(0, 0, c.name);
    acc[c.characteristicId := IdTally(t.sum + c.value, t.count + 1, t.name)]
  }

  /** charsForProduct: the reduce from an empty object. */
  function Reduce(obs: seq<Observation>): (acc: map<int, IdTally>)
    ensures forall i :: 0 <= i < |obs| ==> obs[i].characteristicId in acc
    ensures forall id :: id in acc ==> acc[id].count > 0
  {
    if obs == [] then map[] else Accumulate(Reduce(obs[..|obs| - 1]), obs[|obs| - 1])
  }

  /** Reference definition: the observations of characteristic `id`, in order. */
  function WithId(obs: seq<Observation>, id: int): seq<Observation>
  {
    if obs == [] then []
    else WithId(obs[..|obs| - 1], id) + (if obs[|obs| - 1].characteristicId == id then [obs[|obs| - 1]] else [])
  }

  /** The sum of the observed values. */
  function SumOf(obs: seq<Observation>): int
  {
    if obs == [] then 0 else SumOf(obs[..|obs| - 1]) + obs[|obs| - 1].value
  }

  /** The reduce has an entry exactly for the characteristic ids observed; each entry holds the
      sum and number of that id's observations and the name of its first one. */
  lemma {:induction false} ReduceTallies(obs: seq<Observation>)
    ensures forall id :: id in Reduce(obs) <==> WithId(obs, id) != []
    ensures forall id :: id in Reduce(obs) ==>
      Reduce(obs)[id] == IdTally(SumOf(WithId(obs, id)), |WithId(obs, id)|, WithId(obs, id)[0].name)
  {
    if obs != [] {
      var init, last := obs[..|obs| - 1], obs[|obs| - 1];
      ReduceTallies(init);
      forall id
        ensures id in Reduce(obs) <==> WithId(obs, id) != []
        ensures id in Reduce(obs) ==>
          Reduce(obs)[id] == IdTally(SumOf(WithId(obs, id)), |WithId(obs, id)|, WithId(obs, id)[0].name)
      {
        var w := WithId(init, id);
        if id == last.characteristicId {
          assert WithId(obs, id) == w + [last];
          assert (w + [last])[..|w|] == w;
          if w != [] {
            assert (w + [last])[0] == w[0];
          }
        } else {
          assert WithId(obs, id) == w;
        }
      }
    }
  }

  /** The membership of WithId: exactly the observations of that characteristic id. */
  lemma {:induction false} WithIdMembers(obs: seq<Observation>, id: int)
    ensures forall o :: o in WithId(obs, id) <==> o in obs && o.characteristicId == id
  {
    if obs != [] {
      WithIdMembers(obs[..|obs| - 1], id);
      assert obs == obs[..|obs| - 1] + [obs[|obs| - 1]];
    }
  }

  /** The membership of ForProduct: exactly the observations of that product. */
  lemma {:induction false} ForProductMembers(obs: seq<Observation>, productId: int)
    ensures forall o :: o in ForProduct(obs, productId) <==> o in obs && o.productId == productId
  {
    if obs != [] {
      ForProductMembers(obs[..|obs| - 1], productId);
      assert obs == obs[..|obs| - 1] + [obs[|obs| - 1]];
    }
  }

  /** averagedChars: one entry per key of charsForProduct, in ascending key order (the order of
      Object.keys on integer-like keys), with the mean value. */
  function AverageChars(acc: map<int, IdTally>): (chars: seq<CharacteristicSummary>)
    requires forall id :: id in acc ==> acc[id].count > 0
    ensures |chars| == |acc.Keys|
    ensures forall i :: 0 <= i < |chars| ==>
      && chars[i].id in acc
      && chars[i].name == acc[chars[i].id].name
      && chars[i].value == acc[chars[i].id].sum as real / acc[chars[i].id].count as real
    ensures forall id :: id in acc ==> exists i :: 0 <= i < |chars| && chars[i].id == id
    ensures forall i, j :: 0 <= i < j < |chars| ==> chars[i].id < chars[j].id
  {
    var ks := Ascending(acc.Keys);
    var chars := MeansAt(acc, ks);
    EveryKeyListed(acc.Keys, ks, chars);
    chars
  }

  /** The entries `{id, name, value: sum / count}` of the given keys, in the given order. */
  function MeansAt(acc: map<int, IdTally>, ks: seq<int>): (chars: seq<CharacteristicSummary>)
    requires forall i :: 0 <= i < |ks| ==> ks[i] in acc && acc[ks[i]].count > 0
    ensures |chars| == |ks|
    ensures forall i :: 0 <= i < |ks| ==>
      chars[i] == CharacteristicSummary(ks[i], acc[ks[i]].name, acc[ks[i]].sum as real / acc[ks[i]].count as real)
  {
    seq(|ks|, i requires 0 <= i < |ks| =>
      CharacteristicSummary(ks[i], acc[ks[i]].name, acc[ks[i]].sum as real / acc[ks[i]].count as real))
  }

  /** A list whose ids are the keys in some order has an entry for every key. */
  lemma EveryKeyListed(keys: set<int>, ks: seq<int>, chars: seq<CharacteristicSummary>)
    requires |chars| == |ks| && forall i :: 0 <= i < |ks| ==> chars[i].id == ks[i]
    requires forall y :: y in keys ==> y in ks
    ensures forall id :: id in keys ==> exists i :: 0 <= i < |chars| && chars[i].id == id
  {
    forall id | id in keys
      ensures exists i :: 0 <= i < |chars| && chars[i].id == id
    {
      var i :| 0 <= i < |ks| && ks[i] == id;
      assert chars[i].id == id;
    }
  }

  /** The characteristics list a product's metadata document receives. */
  function CharAverages(characteristics: seq<Observation>, productId: int): seq<CharacteristicSummary>
  {
    var acc := Reduce(ForProduct(characteristics, productId));
    ReduceTallies(ForProduct(characteristics, productId));
    AverageChars(acc)
  }

  /** The characteristics list of a product lists its ids in strictly ascending order. */
  lemma CharAveragesAscending(characteristics: seq<Observation>, productId: int)
    ensures var chars := CharAverages(characteristics, productId);
      forall i, j :: 0 <= i < j < |chars| ==> chars[i].id < chars[j].id
  {
  }

  /** Each entry's id has observations for the product; the entry carries the first one's name
      and the mean of their values. */
  lemma CharAveragesMeans(characteristics: seq<Observation>, productId: int)
    ensures var chars := CharAverages(characteristics, productId);
      forall i :: 0 <= i < |chars| ==>
        var m := WithId(ForProduct(characteristics, productId), chars[i].id);
        && m != []
        && chars[i].name == m[0].name
        && chars[i].value == SumOf(m) as real / |m| as real
  {
    ReduceTallies(ForProduct(characteristics, productId));
  }

  /** Every characteristic observed for the product is listed. */
  lemma CharAveragesComplete(characteristics: seq<Observation>, productId: int)
    ensures var chars := CharAverages(characteristics, productId);
      forall o :: o in characteristics && o.productId == productId ==>
        exists i :: 0 <= i < |chars| && chars[i].id == o.characteristicId
  {
    var mine := ForProduct(characteristics, productId);
    var acc := Reduce(mine);
    ReduceTallies(mine);
    ForProductMembers(characteristics, productId);
    var chars := CharAverages(characteristics, productId);
    var ks := Ascending(acc.Keys);
    forall o | o in characteristics && o.productId == productId
      ensures exists i :: 0 <= i < |chars| && chars[i].id == o.characteristicId
    {
      WithIdMembers(mine, o.characteristicId);
      assert o in WithId(mine, o.characteristicId);
      assert o.characteristicId in ks;
      var i :| 0 <= i < |ks| && ks[i] == o.characteristicId;
      assert chars[i].id == ks[i];
    }
  }

  // The Review aggregation and the per-product upsert.

  /** An element pushed by the $group stage: {rating, recommend}. */
  datatype RatingEntry = RatingEntry(rating: int, recommend: bool)

  /** The $group stage's `ratings` array of a product, in collection order. */
  function GroupOf(reviews: seq<Review>, productId: int): (g: seq<RatingEntry>)
    ensures |g| <= |reviews|
  {
    if reviews == [] then []
    else
      var last := reviews[|reviews| - 1];
      GroupOf(reviews[..|reviews| - 1], productId) + (if last.productId == productId then [RatingEntry(last.rating, last.recommend)] else [])
  }

  /** The products the $group stage yields: those with at least one review. */
  function ProductsOf(reviews: seq<Review>): set<int>
  {
    set r | r in reviews :: r.productId
  }

  function RatingsIn(entries: seq<RatingEntry>): seq<int>
  {
    seq(|entries|, i requires 0 <= i < |entries| => entries[i].rating)
  }

  function RecommendsIn(entries: seq<RatingEntry>): seq<bool>
  {
    seq(|entries|, i requires 0 <= i < |entries| => entries[i].recommend)
  }

  /** One more entry of the group: its rating and its recommend flag are counted. */
  lemma CountedSnoc(entries: seq<RatingEntry>, i: nat)
    requires i < |entries|
    ensures Histogram(RatingsIn(entries[..i + 1])) == Bump(Histogram(RatingsIn(entries[..i])), entries[i].rating)
    ensures Recommendations(RecommendsIn(entries[..i + 1])) == Recommend(Recommendations(RecommendsIn(entries[..i])), entries[i].recommend)
  {
    var rs, cs := RatingsIn(entries[..i + 1]), RecommendsIn(entries[..i + 1]);
    assert rs[..i] == RatingsIn(entries[..i]);
    assert cs[..i] == RecommendsIn(entries[..i]);
  }

  /** Reference definition: the product's reviews, in collection order. */
  function ReviewsOf(reviews: seq<Review>, productId: int): seq<Review>
  {
    if reviews == [] then []
    else
      var last := reviews[|reviews| - 1];
      ReviewsOf(reviews[..|reviews| - 1], productId) + (if last.productId == productId then [last] else [])
  }

  /** The group has exactly one entry per review of the product, in collection order. */
  lemma {:induction false} GroupOfReviews(reviews: seq<Review>, productId: int)
    ensures |GroupOf(reviews, productId)| == |ReviewsOf(reviews, productId)|
    ensures forall i :: 0 <= i < |GroupOf(reviews, productId)| ==>
      GroupOf(reviews, productId)[i] == RatingEntry(ReviewsOf(reviews, productId)[i].rating, ReviewsOf(reviews, productId)[i].recommend)
  {
    if reviews != [] {
      GroupOfReviews(reviews[..|reviews| - 1], productId);
    }
  }

  /** The group holds one entry per review of the product, and nothing else. */
  lemma {:induction false} GroupOfMembers(reviews: seq<Review>, productId: int)
    ensures forall e :: e in GroupOf(reviews, productId) <==>
      exists r :: r in reviews && r.productId == productId && e == RatingEntry(r.rating, r.recommend)
  {
    if reviews != [] {
      var init := reviews[..|reviews| - 1];
      GroupOfMembers(init, productId);
      assert reviews == init + [reviews[|reviews| - 1]];
    }
  }

  /** The loop over a product's ratings: the histogram with keys 1 to 5 preset, and the
      recommend counts. */
  method CountRatings(entries: seq<RatingEntry>) returns (ratingsSummary: map<int, nat>, recommended: Recommended)
    ensures ratingsSummary == Histogram(RatingsIn(entries))
    ensures recommended == Recommendations(RecommendsIn(entries))
  {
    ratingsSummary := map[1 := 0, 2 := 0, 3 := 0, 4 := 0, 5 := 0];
    var recommendedYes: nat := 0;
    var recommendedNo: nat := 0;
    var i := 0;
    assert RatingsIn(entries[..0]) == [] && RecommendsIn(entries[..0]) == [];
    while i < |entries|
      invariant 0 <= i <= |entries|
      invariant ratingsSummary == Histogram(RatingsIn(entries[..i]))
      invariant Recommended(recommendedNo, recommendedYes) == Recommendations(RecommendsIn(entries[..i]))
    {
      var rating := entries[i];
      CountedSnoc(entries, i);
      ratingsSummary := Bump(ratingsSummary, rating.rating);
      if rating.recommend {
        recommendedYes := recommendedYes + 1;
      } else {
        recommendedNo := recommendedNo + 1;
      }
      i := i + 1;
    }
    assert entries[..i] == entries;
    recommended := Recommended(recommendedNo, recommendedYes);
  }

  /** The document updateReviewsMeta sets for a product. */
  function MetaFor(reviews: seq<Review>, characteristics: seq<Observation>, productId: int): ReviewsMeta
  {
    var entries := GroupOf(reviews, productId);
    ReviewsMeta(Some(Histogram(RatingsIn(entries))), Some(Recommendations(RecommendsIn(entries))), CharAverages(characteristics, productId))
  }

  /** MetaFor as a function of the product id. */
  function MetaOf(reviews: seq<Review>, characteristics: seq<Observation>): int -> ReviewsMeta
  {
    p => MetaFor(reviews, characteristics, p)
  }

  /** The collection once the products in `done` have been upserted with the documents `f`. */
  function Overlay(docs: map<int, ReviewsMeta>, f: int -> ReviewsMeta, done: set<int>): map<int, ReviewsMeta>
  {
    map p | p in docs.Keys + done :: if p in done then f(p) else docs[p]
  }

  lemma OverlayNone(docs: map<int, ReviewsMeta>, f: int -> ReviewsMeta)
    ensures Overlay(docs, f, {}) == docs
  {
    assert Overlay(docs, f, {}).Keys == docs.Keys;
  }

  lemma OverlayStep(docs: map<int, ReviewsMeta>, f: int -> ReviewsMeta, done: set<int>, p: int)
    ensures Overlay(docs, f, done + {p}) == Overlay(docs, f, done)[p := f(p)]
  {
  }

  /** The collection once the products in `done` have been recomputed. */
  function Recomputed(docs: map<int, ReviewsMeta>, reviews: seq<Review>, characteristics: seq<Observation>, done: set<int>): map<int, ReviewsMeta>
  {
    Overlay(docs, MetaOf(reviews, characteristics), done)
  }

  /** The products written before an upsert is rejected: visited in ascending order, the loop
      stops at the least product whose write fails, so exactly the products below every
      failing one are written. */
  ghost function Written(products: set<int>, failing: set<int>): set<int>
  {
    set p | p in products && forall f :: f in products && f in failing ==> p < f
  }

  /** The written products are a failure-free prefix of the products in ascending order; every
      product left out lies at or above a failing one, and all are written exactly when none
      fails. */
  lemma WrittenShape(products: set<int>, failing: set<int>)
    ensures var w := Written(products, failing);
      && w <= products && w !! failing
      && (forall p, q :: p in w && q in products - w ==> p < q)
      && (forall q :: q in products - w ==> exists f :: f in products && f in failing && f <= q)
      && (products !! failing <==> w == products)
  {
    var w := Written(products, failing);
    forall q | q in products - w
      ensures exists f :: f in products && f in failing && f <= q
    {
      assert !forall f :: f in products && f in failing ==> q < f;
    }
    if w == products {
      forall f | f in products
        ensures f !in failing
      {
        assert f in w;
      }
    }
  }

  /** The loop body of updateReviewsMeta for one product of the aggregation. */
  method SummarizeProduct(reviews: seq<Review>, characteristics: seq<Observation>, productId: int)
    returns (ratingsSummary: map<int, nat>, recommended: Recommended, averagedChars: seq<CharacteristicSummary>)
    ensures ReviewsMeta(Some(ratingsSummary), Some(recommended), averagedChars) == MetaOf(reviews, characteristics)(productId)
  {
    ratingsSummary, recommended := CountRatings(GroupOf(reviews, productId));
    var charsForProduct := Reduce(ForProduct(characteristics, productId));
    ReduceTallies(ForProduct(characteristics, productId));
    averagedChars := AverageChars(charsForProduct);
  }

  /** One iteration of updateReviewsMeta: compute the product's summary and upsert it. */
  method UpsertProduct(store: ReviewsMetaCollection, reviews: seq<Review>, characteristics: seq<Observation>, productId: int)
    modifies store
    ensures store.docs == old(store.docs)[productId := MetaOf(reviews, characteristics)(productId)]
  {
    var ratingsSummary, recommended, averagedChars := SummarizeProduct(reviews, characteristics, productId);
    store.SetSummary(productId, ratingsSummary, recommended, averagedChars);
  }

  /** updateReviewsMeta: every product with reviews gets its histogram, recommend counts and
      characteristic averages upserted, in ascending product id; other documents are
      untouched. `failing` holds the products whose upsert the database rejects: the first
      rejection ends the loop and the call. */
  method UpdateReviewsMeta(store: ReviewsMetaCollection, reviews: seq<Review>, characteristics: seq<Observation>, failing: set<int>)
    returns (aborted: bool)
    modifies store
    ensures aborted <==> !(ProductsOf(reviews) !! failing)
    ensures store.docs == Recomputed(old(store.docs), reviews, characteristics, Written(ProductsOf(reviews), failing))
  {
    ghost var docs0 := store.docs;
    var products := ProductsOf(reviews);
    var remaining := products;
    ghost var done: set<int> := {};
    aborted := false;
    OverlayNone(docs0, MetaOf(reviews, characteristics));
    while remaining != {}
      invariant Visiting(products, failing, done, remaining)
      invariant store.docs == Recomputed(docs0, reviews, characteristics, done)
      decreases |remaining|
    {
      var productId := NextKey(remaining);
      if productId in failing {
        aborted := true;
        WrittenBefore(products, failing, done, remaining, productId);
        return;
      }
      UpsertVisited(store, reviews, characteristics, docs0, done, productId);
      VisitedStep(products, failing, done, remaining, productId);
      remaining := remaining - {productId};
      done := done + {productId};
    }
    WrittenAll(products, failing, done);
  }

  /** One more upsert extends the products recomputed so far by one. */
  method UpsertVisited(store: ReviewsMetaCollection, reviews: seq<Review>, characteristics: seq<Observation>,
                       ghost docs0: map<int, ReviewsMeta>, ghost done: set<int>, productId: int)
    requires store.docs == Recomputed(docs0, reviews, characteristics, done)
    modifies store
    ensures store.docs == Recomputed(docs0, reviews, characteristics, done + {productId})
  {
    OverlayStep(docs0, MetaOf(reviews, characteristics), done, productId);
    UpsertProduct(store, reviews, characteristics, productId);
  }

  /** The state of the upsert loop: the products split into those visited and those still to
      visit, every visited one below every remaining one, and none of the visited failing. */
  ghost predicate Visiting(products: set<int>, failing: set<int>, done: set<int>, remaining: set<int>)
  {
    && done + remaining == products && done !! remaining && done !! failing
    && forall p, q :: p in done && q in remaining ==> p < q
  }

  /** Visiting the least remaining product, when it does not fail, keeps the loop state. */
  lemma VisitedStep(products: set<int>, failing: set<int>, done: set<int>, remaining: set<int>, k: int)
    requires Visiting(products, failing, done, remaining)
    requires k in remaining && k !in failing && forall y :: y in remaining ==> k <= y
    ensures Visiting(products, failing, done + {k}, remaining - {k})
  {
  }

  /** With no failing product visited, every product is written. */
  lemma WrittenAll(products: set<int>, failing: set<int>, done: set<int>)
    requires Visiting(products, failing, done, {})
    ensures Written(products, failing) == done && products !! failing
  {
  }

  /** Stopping at the least remaining product, when it fails, leaves exactly the written set. */
  lemma WrittenBefore(products: set<int>, failing: set<int>, done: set<int>, remaining: set<int>, stop: int)
    requires Visiting(products, failing, done, remaining)
    requires stop in remaining && stop in failing
    requires forall y :: y in remaining ==> stop <= y
    ensures done == Written(products, failing)
    ensures !(products !! failing)
  {
    assert stop in products;
    forall p | p in Written(products, failing)
      ensures p in done
    {
      assert p < stop;
    }
    forall p | p in done
      ensures p in Written(products, failing)
    {
      forall g | g in products && g in failing
        ensures p < g
      {
        assert g !in done;
      }
    }
  }

  /** The whole script: characteristicsById, then the joined characteristic reviews, then the
      recomputation over the Review collection. */
  method Run(characteristicRows: seq<CharacteristicRow>, characteristicReviewRows: seq<CharacteristicReviewRow>,
             reviews: seq<Review>, store: ReviewsMetaCollection, failing: set<int>)
    returns (aborted: bool)
    modifies store
    ensures aborted <==> !(ProductsOf(reviews) !! failing)
    ensures store.docs == Recomputed(old(store.docs), reviews,
      Resolve(characteristicReviewRows, Define(map[], characteristicRows)), Written(ProductsOf(reviews), failing))
  {
    var characteristicsById := LoadCharsData(characteristicRows);
    var characteristics := LoadCharsReviewsData(characteristicReviewRows, characteristicsById);
    aborted := UpdateReviewsMeta(store, reviews, characteristics, failing);
  }

  /** Only products with at least one review are written: the collection gains their documents
      and every other document stays as it was. */
  lemma RecomputedOnlyReviewed(docs: map<int, ReviewsMeta>, reviews: seq<Review>, characteristics: seq<Observation>)
    ensures Recomputed(docs, reviews, characteristics, ProductsOf(reviews)).Keys == docs.Keys + ProductsOf(reviews)
    ensures forall p :: p in ProductsOf(reviews) ==>
      Recomputed(docs, reviews, characteristics, ProductsOf(reviews))[p] == MetaFor(reviews, characteristics, p)
    ensures forall p :: p in docs && p !in ProductsOf(reviews) ==>
      Recomputed(docs, reviews, characteristics, ProductsOf(reviews))[p] == docs[p]
  {
  }

  /** A recomputed document: exactly the products with reviews are written; the histogram
      counts each rating of the product's reviews, keys 1 to 5 always present, and the
      recommend counts add up to the number of its reviews. */
  lemma {:induction false} RecomputedCounts(docs: map<int, ReviewsMeta>, reviews: seq<Review>, characteristics: seq<Observation>, productId: int)
    requires productId in ProductsOf(reviews)
    ensures var d := Recomputed(docs, reviews, characteristics, ProductsOf(reviews))[productId];
      var entries := GroupOf(reviews, productId);
      && d.ratings.Some? && d.recommended.Some?
      && (forall r :: 1 <= r <= 5 ==> r in d.ratings.value)
      && (forall r :: r in d.ratings.value ==> d.ratings.value[r] == multiset(RatingsIn(entries))[r])
      && d.recommended.value.yes + d.recommended.value.no == |entries|
      && d.recommended.value.yes == multiset(RecommendsIn(entries))[true]
    ensures var d := Recomputed(docs, reviews, characteristics, ProductsOf(reviews))[productId];
      && BucketTotal(d.ratings.value) == |ReviewsOf(reviews, productId)|
      && d.recommended.value.yes + d.recommended.value.no == |ReviewsOf(reviews, productId)|
  {
    var entries := GroupOf(reviews, productId);
    GroupOfReviews(reviews, productId);
    HistogramSize(RatingsIn(entries));
    HistogramCounts(RatingsIn(entries));
    RecommendationCounts(RecommendsIn(entries));
  }
}

=== FILE: reconcile.dfy ===
/** How the incremental path would agree with the bulk recomputation: replaying updateMeta for
    each of a product's reviews, from a document holding only the schema defaults, leaves the
    same histogram, recommend counts and characteristic sums, counts and means as the bulk
    recomputation of updateReviewsMeta. The comparison is hypothetical: the server updates the
    `metas` collection (server/model.js:6), the bulk scripts write `reviewsmetas`
    (database/mongodb/metaETL.js:8), and that schema has no total or count, so no bulk document
    ever reaches updateMeta. The value parts use the intended update of MergeCharacteristic. */
module Reconcile {
  import opened Records
  import opened Counts
  import opened MetaEtl
  import opened ServerModel

  /** The document after successive updateMeta calls, one per posted review, in order. */
  function Replay(m: Meta, reviews: seq<NewReview>): Meta
  {
    if reviews == [] then m
    else
      var last := reviews[|reviews| - 1];
      MergeAll(IncCounts(Replay(m, reviews[..|reviews| - 1]), last.rating, last.recommend), last.characteristics).meta
  }

  /** The {rating, recommend} pairs of the posted reviews, as the $group stage collects them. */
  function EntriesOf(reviews: seq<NewReview>): seq<RatingEntry>
  {
    seq(|reviews|, i requires 0 <= i < |reviews| => RatingEntry(reviews[i].rating, reviews[i].recommend))
  }

  /** Every posted characteristic of the reviews, review after review. */
  function AllChars(reviews: seq<NewReview>): seq<CharInput>
  {
    if reviews == [] then [] else AllChars(reviews[..|reviews| - 1]) + reviews[|reviews| - 1].characteristics
  }

  /** The posted form of joined characteristic observations: name and value. */
  function InputsOf(obs: seq<Observation>): seq<CharInput>
  {
    if obs == [] then [] else InputsOf(obs[..|obs| - 1]) + [CharInput(obs[|obs| - 1].name, obs[|obs| - 1].value)]
  }

  /** Replayed from the schema defaults (buckets 1 to 5 and both recommend counts at 0), the
      count updates give exactly the histogram and recommend counts of the bulk recount. */
  lemma {:induction false} ReplayCounts(m: Meta, reviews: seq<NewReview>)
    requires m.ratings == BaseRatings && m.recommended == Recommended(0, 0)
    ensures Replay(m, reviews).ratings == Histogram(RatingsIn(EntriesOf(reviews)))
    ensures Replay(m, reviews).recommended == Recommendations(RecommendsIn(EntriesOf(reviews)))
  {
    if reviews != [] {
      var init, last := reviews[..|reviews| - 1], reviews[|reviews| - 1];
      ReplayCounts(m, init);
      MergeAllShape(IncCounts(Replay(m, init), last.rating, last.recommend), last.characteristics);
      var rs, cs := RatingsIn(EntriesOf(reviews)), RecommendsIn(EntriesOf(reviews));
      assert rs[..|rs| - 1] == RatingsIn(EntriesOf(init));
      assert cs[..|cs| - 1] == RecommendsIn(EntriesOf(init));
    }
  }

  /** The characteristic updates read and write only the characteristics list. */
  lemma {:induction false} MergeAllOnlyCharacteristics(a: Meta, b: Meta, chars: seq<CharInput>)
    requires a.characteristics == b.characteristics
    ensures MergeAll(a, chars).meta.characteristics == MergeAll(b, chars).meta.characteristics
    ensures MergeAll(a, chars).failed == MergeAll(b, chars).failed
  {
    if chars != [] {
      MergeAllOnlyCharacteristics(a, b, chars[..|chars| - 1]);
    }
  }

  /** The characteristics after the replay are those after all the posted characteristics at
      once: the count updates in between do not touch them. */
  lemma {:induction false} ReplayCharacteristics(m: Meta, reviews: seq<NewReview>)
    ensures Replay(m, reviews).characteristics == MergeAll(m, AllChars(reviews)).meta.characteristics
  {
    if reviews != [] {
      var init, last := reviews[..|reviews| - 1], reviews[|reviews| - 1];
      ReplayCharacteristics(m, init);
      var before := Replay(m, init);
      var counted := IncCounts(before, last.rating, last.recommend);
      var merged := MergeAll(m, AllChars(init)).meta;
      MergeAllOnlyCharacteristics(counted, merged, last.characteristics);
      MergeAllAppend(m, AllChars(init), last.characteristics);
    }
  }

  lemma InputsNamedSnoc(obs: seq<Observation>, name: string)
    requires obs != []
    ensures var last := obs[|obs| - 1];
      Named(InputsOf(obs), name) ==
        Named(InputsOf(obs[..|obs| - 1]), name) + (if last.name == name then [CharInput(last.name, last.value)] else [])
  {
    var xs := InputsOf(obs);
    assert xs[..|xs| - 1] == InputsOf(obs[..|obs| - 1]);
  }

  lemma SumsSnoc(n: seq<CharInput>, c: CharInput, w: seq<Observation>, o: Observation)
    ensures SumInputs(n + [c]) == SumInputs(n) + c.value
    ensures SumOf(w + [o]) == SumOf(w) + o.value
  {
    assert (n + [c])[..|n|] == n;
    assert (w + [o])[..|w|] == w;
  }

  /** One more observation adds the same value and the same count to the posted values of a name
      as to the observations of an id, when it carries both or neither. */
  lemma NamedWithIdStep(obs: seq<Observation>, name: string, id: int)
    requires obs != []
    requires obs[|obs| - 1].name == name <==> obs[|obs| - 1].characteristicId == id
    ensures var init := obs[..|obs| - 1];
      && SumInputs(Named(InputsOf(obs), name)) - SumInputs(Named(InputsOf(init), name))
         == SumOf(WithId(obs, id)) - SumOf(WithId(init, id))
      && |Named(InputsOf(obs), name)| - |Named(InputsOf(init), name)|
         == |WithId(obs, id)| - |WithId(init, id)|
  {
    var init, last := obs[..|obs| - 1], obs[|obs| - 1];
    InputsNamedSnoc(obs, name);
    var n, w := Named(InputsOf(init), name), WithId(init, id);
    if last.name == name {
      var c := CharInput(last.name, last.value);
      SumsSnoc(n, c, w, last);
      assert Named(InputsOf(obs), name) == n + [c];
      assert WithId(obs, id) == w + [last];
    } else {
      assert Named(InputsOf(obs), name) == n;
      assert WithId(obs, id) == w;
    }
  }

  /** When one name and one characteristic id pick out the same observations, the posted values
      of that name are the observations of that id. */
  lemma {:induction false} NamedIsWithId(obs: seq<Observation>, name: string, id: int)
    requires forall o :: o in obs ==> (o.name == name <==> o.characteristicId == id)
    ensures SumInputs(Named(InputsOf(obs), name)) == SumOf(WithId(obs, id))
    ensures |Named(InputsOf(obs), name)| == |WithId(obs, id)|
  {
    if obs != [] {
      var init, last := obs[..|obs| - 1], obs[|obs| - 1];
      assert forall o :: o in init ==> o in obs;
      assert last in obs;
      NamedIsWithId(init, name, id);
      NamedWithIdStep(obs, name, id);
    }
  }

  /** A characteristic entry that starts at total 0 and count 0 (the bulk load writes neither),
      replayed over a product's reviews whose posted characteristics are the product's joined
      observations, ends with the sum, count and mean that updateReviewsMeta computes for the
      characteristic id carrying that name. */
  lemma ReplayMatchesBulkAverages(m: Meta, reviews: seq<NewReview>, obs: seq<Observation>, k: nat, id: int)
    requires k < |m.characteristics| && FindChar(m.characteristics, m.characteristics[k].name) == k
    requires m.characteristics[k].total == 0 && m.characteristics[k].count == 0
    requires AllChars(reviews) == InputsOf(obs)
    requires forall o :: o in obs ==> (o.name == m.characteristics[k].name <==> o.characteristicId == id)
    requires id in Reduce(obs)
    ensures |Replay(m, reviews).characteristics| == |m.characteristics|
    ensures var e, t := Replay(m, reviews).characteristics[k], Reduce(obs)[id];
      && e.total == t.sum && e.count == t.count
      && t.count > 0 && e.value == t.sum as real / t.count as real
  {
    var name := m.characteristics[k].name;
    ReplayCharacteristics(m, reviews);
    var merged := MergeAll(m, InputsOf(obs)).meta.characteristics;
    assert Replay(m, reviews).characteristics == merged;
    MergeAllFirst(m, InputsOf(obs), k);
    NamedIsWithId(obs, name, id);
    TallyOf(obs, id);
  }

  /** The reduce entry of one observed id: the sum and number of that id's observations. */
  lemma TallyOf(obs: seq<Observation>, id: int)
    requires id in Reduce(obs)
    ensures Reduce(obs)[id].sum == SumOf(WithId(obs, id))
    ensures Reduce(obs)[id].count == |WithId(obs, id)| > 0
  {
    ReduceTallies(obs);
  }
}

=== FILE: records.dfy ===
/** Parsed input rows and the documents the ETL builds from them.
    Numeric CSV fields arrive already parsed; dates are kept as opaque integers. */
module Records {

  datatype Option<+T> = None | Some(value: T)

  /** A row of characteristics.csv. */
  datatype CharacteristicRow = CharacteristicRow(id: int, name: string, productId: int)

  /** A row of characteristic_reviews.csv. */
  datatype CharacteristicReviewRow = CharacteristicReviewRow(reviewId: int, characteristicId: int, value: int)

  /** A row of reviews_photos.csv. */
  datatype PhotoRow = PhotoRow(reviewId: int, id: int, url: string)

  /** A row of reviews.csv; `recommend` is still the raw text of the column. */
  datatype ReviewRow = ReviewRow(
    id: int, productId: int, rating: int, summary: string, recommend: string,
    response: string, body: string, date: int, reviewerName: string, helpfulness: int)

  /** An entry of characteristicsById. */
  datatype Characteristic = Characteristic(name: string, productId: int)

  /** An entry of a list in charReviewsByReviewId. */
  datatype CharacteristicReview = CharacteristicReview(characteristicId: int, value: int)

  /** A photo attached to a review document. */
  datatype Photo = Photo(id: int, url: string)

  /** A review document as written by the bulk load. */
  datatype Review = Review(
    productId: int, reviewId: int, rating: int, summary: string, recommend: bool,
    response: string, body: string, date: int, reviewerName: string, helpfulness: int,
    photos: seq<Photo>)

  /** A characteristic observation joined with its definition. */
  datatype Observation = Observation(
    reviewId: int, characteristicId: int, productId: int, name: string, value: int)

  /** A characteristic entry of a ReviewsMeta document: id, name and average value. */
  datatype CharacteristicSummary = CharacteristicSummary(id: int, name: string, value: real)

  /** The `recommended` sub-document: counts under the keys `false` and `true`. */
  datatype Recommended = Recommended(no: nat, yes: nat)
}

=== FILE: reviews_etl.dfy ===
/** The review-only bulk load: photos are grouped by review id, then reviews.csv is read row by
    row, enriched, and inserted 5000 at a time with each insertMany awaited. A failed insert
    rejects the whole run, so no later batch is inserted. */
module ReviewsEtl {
  import opened Records
  import opened Lookup
  import opened Enrich
  import opened Batching

  const ReviewBatchSize: nat := 5000

  /** processPhotos of this script: a missing list gives `[]`, any other list is copied keeping
      each photo's id and url. */
  function ProcessPhotosOrEmpty(photos: Option<seq<Photo>>): (r: seq<Photo>)
    ensures photos.None? ==> r == []
    ensures photos.Some? ==> |r| == |photos.value|
    ensures photos.Some? ==> forall i :: 0 <= i < |r| ==> r[i].id == photos.value[i].id && r[i].url == photos.value[i].url
  {
    match photos
    case None => []
    case Some(ps) => ProcessPhotos(ps)
  }

  /** The lookup `photosByReviewId[reviewId] || []` handed to processPhotos never misses, so a
      review's photos are its group or `[]`, as in the enrichment shared with the other script. */
  lemma EnrichedPhotos(row: ReviewRow, photosByReviewId: map<int, seq<Photo>>)
    ensures EnrichReview(row, photosByReviewId).photos == ProcessPhotosOrEmpty(Some(PhotosFor(photosByReviewId, row.id)))
    ensures row.id !in photosByReviewId ==> EnrichReview(row, photosByReviewId).photos == []
  {
  }

  /** loadAllData: reviews_photos.csv into photosByReviewId, one list per review id. */
  method LoadAllData(photoRows: seq<PhotoRow>) returns (photosByReviewId: map<int, seq<Photo>>)
    ensures photosByReviewId == GroupInto(map[], PhotoPairs(photoRows))
  {
    var tables := new Tables();
    tables.LoadPhotos(photoRows);
    photosByReviewId := tables.photosByReviewId;
  }

  /** The number of the first insertMany call, among calls 0 to n - 1, that fails; n when
      none of them does. `failing` stands for the database's answers. */
  function FirstFailure(failing: set<nat>, n: nat): (k: nat)
    ensures k <= n
    ensures k < n ==> k in failing
    ensures forall c: nat :: c < k ==> c !in failing
  {
    if n == 0 then 0
    else
      var k := FirstFailure(failing, n - 1);
      if k < n - 1 then k else if n - 1 in failing then n - 1 else n
  }

  /** A failing call after only successful ones is the first failure. */
  lemma FirstFailureAt(failing: set<nat>, n: nat, m: nat)
    requires m < n && m in failing
    requires forall c: nat :: c < m ==> c !in failing
    ensures FirstFailure(failing, n) == m
  {
  }

  /** With no failing call among the first n, all n happen. */
  lemma FirstFailureNone(failing: set<nat>, n: nat)
    requires forall c: nat :: c < n ==> c !in failing
    ensures FirstFailure(failing, n) == n
  {
  }

  /** The batches inserted before a mid-stream failure are the first batches of the chunking. */
  lemma AbortedMidStream(log: seq<seq<Review>>, inserted: seq<seq<Review>>, enriched: seq<Review>, i: nat, failing: set<nat>)
    requires i <= |enriched|
    requires forall j :: 0 <= j < |log| ==> |log[j]| == ReviewBatchSize
    requires Flatten(log) == enriched[..i]
    requires |log| == |inserted| + 1 && log[..|inserted|] == inserted
    requires |inserted| in failing
    requires forall c: nat :: c < |inserted| ==> c !in failing
    ensures var all := Chunks(enriched, ReviewBatchSize);
      |inserted| < |all| && FirstFailure(failing, |all|) == |inserted| && inserted == all[..|inserted|]
  {
    FullBatchesPrefix(log, enriched[i..], ReviewBatchSize);
    assert enriched[..i] + enriched[i..] == enriched;
    var all := Chunks(enriched, ReviewBatchSize);
    assert all[..|log|] == log;
    assert all[..|inserted|] == log[..|inserted|];
    FirstFailureAt(failing, |all|, |inserted|);
  }

  /** processReviews: each row is enriched and pushed; a full buffer is inserted and reset, and
      the non-empty remainder is inserted at the end. `failing` holds the numbers of the
      insertMany calls the database rejects: the first rejection aborts the run. What is
      inserted is the chunking of the enriched rows, cut before the first rejected call. */
  method ProcessReviews(rows: seq<ReviewRow>, photosByReviewId: map<int, seq<Photo>>, failing: set<nat>)
    returns (inserted: seq<seq<Review>>, aborted: bool)
    ensures var all := Chunks(EnrichAll(rows, photosByReviewId), ReviewBatchSize);
      var k := FirstFailure(failing, |all|);
      inserted == all[..k] && (aborted <==> k < |all|)
  {
    ghost var enriched := EnrichAll(rows, photosByReviewId);
    var reviewBatch := new BatchWriter<Review>(ReviewBatchSize);
    inserted := [];
    aborted := false;
    var i := 0;
    while i < |rows|
      invariant 0 <= i <= |rows|
      invariant reviewBatch.Valid() && !reviewBatch.ended && reviewBatch.size == ReviewBatchSize
      invariant |reviewBatch.buffer| < ReviewBatchSize
      invariant inserted == reviewBatch.log
      invariant forall c: nat :: c < |inserted| ==> c !in failing
      invariant reviewBatch.Received() == enriched[..i]
    {
      var review := EnrichReview(rows[i], photosByReviewId);
      EnrichedPrefix(rows, photosByReviewId, i);
      var flushed := reviewBatch.Push(review);
      i := i + 1;
      if flushed.Some? {
        if |inserted| in failing {
          assert reviewBatch.log[..|inserted|] == inserted;
          AbortedMidStream(reviewBatch.log, inserted, enriched, i, failing);
          aborted := true;
          return;
        }
        inserted := inserted + [flushed.value];
      }
    }
    assert enriched[..i] == enriched;
    var last := reviewBatch.End();
    ChunksUnique(reviewBatch.log, ReviewBatchSize);
    if last.Some? {
      if |inserted| in failing {
        FirstFailureAt(failing, |reviewBatch.log|, |inserted|);
        assert reviewBatch.log[..|inserted|] == inserted;
        aborted := true;
        return;
      }
      inserted := inserted + [last.value];
    }
    FirstFailureNone(failing, |inserted|);
  }

  /** The whole script: load the photos, then process the reviews. */
  method Run(photoRows: seq<PhotoRow>, rows: seq<ReviewRow>, failing: set<nat>)
    returns (inserted: seq<seq<Review>>, aborted: bool)
    ensures var all := Chunks(EnrichAll(rows, GroupInto(map[], PhotoPairs(photoRows))), ReviewBatchSize);
      var k := FirstFailure(failing, |all|);
      inserted == all[..k] && (aborted <==> k < |all|)
  {
    var photosByReviewId := LoadAllData(photoRows);
    inserted, aborted := ProcessReviews(rows, photosByReviewId, failing);
  }

  /** What a run inserts: whole batches of 5000 except possibly the last, none empty, in input
      order, each record at most once; a run that does not abort inserts every record. */
  lemma InsertedBatches(rows: seq<ReviewRow>, photosByReviewId: map<int, seq<Photo>>, failing: set<nat>, inserted: seq<seq<Review>>, aborted: bool)
    requires var all := Chunks(EnrichAll(rows, photosByReviewId), ReviewBatchSize);
      var k := FirstFailure(failing, |all|);
      inserted == all[..k] && (aborted <==> k < |all|)
    ensures forall j :: 0 <= j < |inserted| ==> 0 < |inserted[j]| <= ReviewBatchSize
    ensures aborted ==> forall j :: 0 <= j < |inserted| ==> |inserted[j]| == ReviewBatchSize
    ensures !aborted ==> Flatten(inserted) == EnrichAll(rows, photosByReviewId)
    ensures !aborted ==> forall j :: 0 <= j < |inserted| - 1 ==> |inserted[j]| == ReviewBatchSize
  {
    var all := Chunks(EnrichAll(rows, photosByReviewId), ReviewBatchSize);
    ChunksRebuild(EnrichAll(rows, photosByReviewId), ReviewBatchSize);
    var k := FirstFailure(failing, |all|);
    assert forall j :: 0 <= j < |inserted| ==> inserted[j] == all[j];
    if !aborted {
      assert inserted == all;
    }
  }
}

=== FILE: server_model.dfy ===
/** The API's data layer: review documents and per-product metadata documents, read with
    filters and updated in place with `$inc` and `$set`. */
module ServerModel {
  import opened Records
  import opened Counts

  /** A review document of the server schema; its `_id` is its position in the collection. */
  datatype StoredReview = StoredReview(
    productId: int, rating: int, date: int, summary: string, body: string, recommend: bool,
    reported: bool, reviewerName: string, reviewerEmail: string, response: string,
    helpfulness: int, photos: seq<string>)

  /** The fields a client posts for a new review. `reported` is `None` when the body omits it. */
  datatype ReviewData = ReviewData(
    productId: int, rating: int, date: int, summary: string, body: string, recommend: bool,
    reported: Option<bool>, reviewerName: string, reviewerEmail: string, response: string,
    helpfulness: int, photos: seq<string>)

  /** A characteristic entry of a metadata document. A field the bulk load never wrote reads
      as 0 under `$inc`. */
  datatype MetaCharacteristic = MetaCharacteristic(name: string, total: int, count: nat, value: real)

  /** A metadata document of the server schema. */
  datatype Meta = Meta(ratings: map<int, nat>, recommended: Recommended, characteristics: seq<MetaCharacteristic>)

  /** One characteristic of a posted review. */
  datatype CharInput = CharInput(name: string, value: int)

  /** The part of a posted review that updateMeta reads. */
  datatype NewReview = NewReview(rating: int, recommend: bool, characteristics: seq<CharInput>)

  // ---------------------------------------------------------------------------------------
  // Reviews

  /** `new Review(reviewData)`: the document saved for a posted review. A posted `reported`
      is kept; the schema default `false` applies when the body omits it. */
  function NewDocument(data: ReviewData): StoredReview
  {
    StoredReview(data.productId, data.rating, data.date, data.summary, data.body, data.recommend,
      if data.reported.Some? then data.reported.value else false,
      data.reviewerName, data.reviewerEmail, data.response, data.helpfulness, data.photos)
  }

  /** Reference definition of getReviews: the product's reviews that are not reported, in
      collection order. */
  function Visible(reviews: seq<StoredReview>, productId: int): (v: seq<StoredReview>)
    ensures |v| <= |reviews|
    ensures forall i :: 0 <= i < |v| ==> v[i].productId == productId && !v[i].reported
  {
    if reviews == [] then []
    else
      var last := reviews[|reviews| - 1];
      Visible(reviews[..|reviews| - 1], productId) + (if last.productId == productId && !last.reported then [last] else [])
  }

  /** getReviews returns exactly the product's unreported reviews. */
  lemma {:induction false} VisibleMembers(reviews: seq<StoredReview>, productId: int)
    ensures forall r :: r in Visible(reviews, productId) <==> r in reviews && r.productId == productId && !r.reported
  {
    if reviews != [] {
      VisibleMembers(reviews[..|reviews| - 1], productId);
      assert reviews == reviews[..|reviews| - 1] + [reviews[|reviews| - 1]];
    }
  }

  /** updateHelpful on `_id`: that review's helpfulness goes up by exactly one and nothing else
      changes; an id matching no review changes nothing. */
  function MarkHelpful(reviews: seq<StoredReview>, id: int): (rs: seq<StoredReview>)
    ensures |rs| == |reviews|
    ensures forall j :: 0 <= j < |rs| && j != id ==> rs[j] == reviews[j]
    ensures 0 <= id < |rs| ==> rs[id] == reviews[id].(helpfulness := reviews[id].helpfulness + 1)
  {
    if 0 <= id < |reviews| then reviews[id := reviews[id].(helpfulness := reviews[id].helpfulness + 1)]
    else reviews
  }

  /** reportReview on `_id`: that review is reported and nothing else changes; an id matching
      no review changes nothing. */
  function MarkReported(reviews: seq<StoredReview>, id: int): (rs: seq<StoredReview>)
    ensures |rs| == |reviews|
    ensures forall j :: 0 <= j < |rs| && j != id ==> rs[j] == reviews[j]
    ensures 0 <= id < |rs| ==> rs[id] == reviews[id].(reported := true)
  {
    if 0 <= id < |reviews| then reviews[id := reviews[id].(reported := true)] else reviews
  }

  /** Reporting twice is reporting once. */
  lemma ReportIdempotent(reviews: seq<StoredReview>, id: int)
    ensures MarkReported(MarkReported(reviews, id), id) == MarkReported(reviews, id)
  {
    var once := MarkReported(reviews, id);
    var twice := MarkReported(once, id);
    assert forall j :: 0 <= j < |twice| ==> twice[j] == once[j];
  }

  /** A helpfulness vote leaves every product's listing the same length. */
  lemma {:induction false} HelpfulKeepsListing(reviews: seq<StoredReview>, id: int, productId: int)
    ensures |Visible(MarkHelpful(reviews, id), productId)| == |Visible(reviews, productId)|
  {
    if reviews != [] {
      var n := |reviews| - 1;
      var after := MarkHelpful(reviews, id);
      HelpfulKeepsListing(reviews[..n], id, productId);
      assert after[..n] == MarkHelpful(reviews[..n], id);
    }
  }

  /** Reporting a listed review removes exactly that one from its product's listing; reporting
      anything else leaves the listing's length alone. */
  lemma {:induction false} ReportHides(reviews: seq<StoredReview>, id: int, productId: int)
    ensures |Visible(MarkReported(reviews, id), productId)| ==
      |Visible(reviews, productId)| -
        (if 0 <= id < |reviews| && reviews[id].productId == productId && !reviews[id].reported then 1 else 0)
  {
    if reviews != [] {
      var n := |reviews| - 1;
      var after := MarkReported(reviews, id);
      ReportHides(reviews[..n], id, productId);
      assert after[..n] == MarkReported(reviews[..n], id);
    }
  }

  // ---------------------------------------------------------------------------------------
  // Metadata: the count update

  /** The `$inc` on `ratings.<rating>` and `recommended.<true|false>`: one more review in its
      rating bucket (created at 0 if absent) and in its recommend bucket; nothing else moves. */
  function IncCounts(m: Meta, rating: int, recommend: bool): (m': Meta)
    ensures rating in m'.ratings && m'.ratings[rating] == (if rating in m.ratings then m.ratings[rating] else 0) + 1
    ensures forall k :: k != rating ==> (k in m'.ratings <==> k in m.ratings)
    ensures forall k :: k != rating && k in m.ratings ==> m'.ratings[k] == m.ratings[k]
    ensures BucketTotal(m'.ratings) == BucketTotal(m.ratings) + 1
    ensures recommend ==> m'.recommended == Recommended(m.recommended.no, m.recommended.yes + 1)
    ensures !recommend ==> m'.recommended == Recommended(m.recommended.no + 1, m.recommended.yes)
    ensures m'.characteristics == m.characteristics
  {
    BumpTotal(m.ratings, rating);
    m.(ratings := Bump(m.ratings, rating), recommended := Recommend(m.recommended, recommend))
  }

  // ---------------------------------------------------------------------------------------
  // Metadata: the characteristic updates

  /** The position of the first entry named `name`, or |cs| when there is none: the element
      the positional `characteristics.$` and `Array.prototype.find` both pick. */
  function FindChar(cs: seq<MetaCharacteristic>, name: string): (k: nat)
    ensures k <= |cs|
    ensures k < |cs| ==> cs[k].name == name
    ensures forall j :: 0 <= j < k ==> cs[j].name != name
  {
    if cs == [] then 0
    else if cs[0].name == name then 0
    else 1 + FindChar(cs[1..], name)
  }

  /** Two lists with the same names find a name at the same place. */
  lemma {:induction false} FindCharSameNames(a: seq<MetaCharacteristic>, b: seq<MetaCharacteristic>, name: string)
    requires |a| == |b| && forall j :: 0 <= j < |a| ==> a[j].name == b[j].name
    ensures FindChar(a, name) == FindChar(b, name)
  {
  }

  /** The `$inc` on `characteristics.$.total` and `characteristics.$.count`. */
  function Incremented(e: MetaCharacteristic, value: int): MetaCharacteristic
  {
    e.(total := e.total + value, count := e.count + 1)
  }

  /** One characteristic of updateMeta AS WRITTEN: the first entry with the name has its total
      and count increased; the follow-up `$set` of the value filters on the path
      `characteristics.$.name`, which no document has, so the value is never rewritten.
      `None` when no entry has the name (the source then reads `.characteristics` of null). */
  function MergeCharacteristicAsWritten(m: Meta, c: CharInput): (r: Option<Meta>)
    ensures var k := FindChar(m.characteristics, c.name);
      && (r.Some? <==> k < |m.characteristics|)
      && (r.Some? ==>
        && |r.value.characteristics| == |m.characteristics|
        && r.value.characteristics[k].total == m.characteristics[k].total + c.value
        && r.value.characteristics[k].count == m.characteristics[k].count + 1
        && r.value.characteristics[k].value == m.characteristics[k].value)
  {
    var k := FindChar(m.characteristics, c.name);
    if k == |m.characteristics| then None
    else Some(m.(characteristics := m.characteristics[k := Incremented(m.characteristics[k], c.value)]))
  }

  /** The stale value: after one review rating "Fit" 4 on a fresh entry, the stored value stays
      0 while total / count is 4. */
  lemma AsWrittenValueIsStale()
    ensures var m := Meta(BaseRatings, Recommended(0, 0), [MetaCharacteristic("Fit", 0, 0, 0.0)]);
      var r := MergeCharacteristicAsWritten(m, CharInput("Fit", 4));
      && r.Some?
      && r.value.characteristics[0].total == 4 && r.value.characteristics[0].count == 1
      && r.value.characteristics[0].value != r.value.characteristics[0].total as real / r.value.characteristics[0].count as real
  {
    var m := Meta(BaseRatings, Recommended(0, 0), [MetaCharacteristic("Fit", 0, 0, 0.0)]);
    assert FindChar(m.characteristics, "Fit") == 0;
  }

  /** One characteristic of updateMeta as intended: the first entry with the name gets the new
      value added to its total, one more in its count, and value = total / count; every other
      entry, the names, the ratings and the recommend counts are unchanged. `None` when no
      entry has the name. */
  function MergeCharacteristic(m: Meta, c: CharInput): (r: Option<Meta>)
    ensures var k := FindChar(m.characteristics, c.name);
      && (r.Some? <==> k < |m.characteristics|)
      && (r.Some? ==>
        var cs, cs' := m.characteristics, r.value.characteristics;
        && r.value.ratings == m.ratings && r.value.recommended == m.recommended
        && |cs'| == |cs|
        && (forall j :: 0 <= j < |cs| && j != k ==> cs'[j] == cs[j])
        && cs'[k].name == cs[k].name
        && cs'[k].total == cs[k].total + c.value
        && cs'[k].count == cs[k].count + 1
        && cs'[k].value == cs'[k].total as real / cs'[k].count as real)
  {
    var k := FindChar(m.characteristics, c.name);
    if k == |m.characteristics| then None
    else
      var e := Incremented(m.characteristics[k], c.value);
      Some(m.(characteristics := m.characteristics[k := e.(value := e.total as real / e.count as real)]))
  }

  /** The result of the characteristic updates of one call: the document and whether some
      update found no entry (the call's promise rejects, the other updates still apply). */
  datatype Merged = Merged(meta: Meta, failed: bool)

  /** The characteristic updates of one posted review, applied in list order. */
  function MergeAll(m: Meta, chars: seq<CharInput>): (r: Merged)
    ensures r.meta.ratings == m.ratings && r.meta.recommended == m.recommended
    ensures |r.meta.characteristics| == |m.characteristics|
    ensures chars == [] ==> r == Merged(m, false)
  {
    if chars == [] then Merged(m, false)
    else
      var r := MergeAll(m, chars[..|chars| - 1]);
      match MergeCharacteristic(r.meta, chars[|chars| - 1])
      case None => Merged(r.meta, true)
      case Some(m') => Merged(m', r.failed)
  }

  /** The posted characteristics carrying `name`, in order. */
  function Named(chars: seq<CharInput>, name: string): seq<CharInput>
  {
    if chars == [] then []
    else Named(chars[..|chars| - 1], name) + (if chars[|chars| - 1].name == name then [chars[|chars| - 1]] else [])
  }

  /** The sum of the posted values. */
  function SumInputs(chars: seq<CharInput>): int
  {
    if chars == [] then 0 else SumInputs(chars[..|chars| - 1]) + chars[|chars| - 1].value
  }

  /** The updates keep the ratings, the recommend counts and every entry's name, and the call
      fails exactly when some posted name has no entry. */
  lemma {:induction false} MergeAllShape(m: Meta, chars: seq<CharInput>)
    ensures var r := MergeAll(m, chars);
      && r.meta.ratings == m.ratings && r.meta.recommended == m.recommended
      && |r.meta.characteristics| == |m.characteristics|
      && (forall j :: 0 <= j < |m.characteristics| ==> r.meta.characteristics[j].name == m.characteristics[j].name)
      && (r.failed <==> exists c :: c in chars && FindChar(m.characteristics, c.name) == |m.characteristics|)
  {
    if chars != [] {
      var init, c := chars[..|chars| - 1], chars[|chars| - 1];
      MergeAllShape(m, init);
      var r := MergeAll(m, init);
      FindCharSameNames(r.meta.characteristics, m.characteristics, c.name);
      assert chars == init + [c];
    }
  }

  /** The first entry carrying a name ends with the posted values of that name added to its
      total, their number added to its count, and (when there was at least one) value =
      total / count; with none it is unchanged. */
  lemma {:induction false} MergeAllFirst(m: Meta, chars: seq<CharInput>, k: nat)
    requires k < |m.characteristics|
    requires FindChar(m.characteristics, m.characteristics[k].name) == k
    ensures |MergeAll(m, chars).meta.characteristics| == |m.characteristics|
    ensures var e, e' := m.characteristics[k], MergeAll(m, chars).meta.characteristics[k];
      var n := Named(chars, e.name);
      && e'.name == e.name
      && e'.total == e.total + SumInputs(n)
      && e'.count == e.count + |n|
      && (n != [] ==> e'.value == e'.total as real / e'.count as real)
      && (n == [] ==> e' == e)
  {
    MergeAllShape(m, chars);
    if chars != [] {
      var init, c := chars[..|chars| - 1], chars[|chars| - 1];
      MergeAllFirst(m, init, k);
      MergeAllShape(m, init);
      var r := MergeAll(m, init);
      FindCharSameNames(r.meta.characteristics, m.characteristics, c.name);
      var name := m.characteristics[k].name;
      if c.name == name {
        assert Named(chars, name) == Named(init, name) + [c];
      } else {
        assert Named(chars, name) == Named(init, name);
      }
    }
  }

  /** An entry whose name an earlier entry already carries is never touched. */
  lemma {:induction false} MergeAllShadowed(m: Meta, chars: seq<CharInput>, k: nat)
    requires k < |m.characteristics|
    requires FindChar(m.characteristics, m.characteristics[k].name) != k
    ensures |MergeAll(m, chars).meta.characteristics| == |m.characteristics|
    ensures MergeAll(m, chars).meta.characteristics[k] == m.characteristics[k]
  {
    MergeAllShape(m, chars);
    if chars != [] {
      var init, c := chars[..|chars| - 1], chars[|chars| - 1];
      MergeAllShadowed(m, init, k);
      MergeAllShape(m, init);
      var r := MergeAll(m, init);
      FindCharSameNames(r.meta.characteristics, m.characteristics, c.name);
    }
  }

  /** Two reviews' updates one after the other are the updates of both lists at once. */
  lemma {:induction false} MergeAllAppend(m: Meta, a: seq<CharInput>, b: seq<CharInput>)
    ensures MergeAll(MergeAll(m, a).meta, b).meta == MergeAll(m, a + b).meta
    ensures MergeAll(m, a + b).failed == (MergeAll(m, a).failed || MergeAll(MergeAll(m, a).meta, b).failed)
    decreases |b|
  {
    if b == [] {
      assert a + b == a;
    } else {
      assert (a + b)[..|a + b| - 1] == a + b[..|b| - 1];
      MergeAllAppend(m, a, b[..|b| - 1]);
    }
  }

  /** updateMeta's effect on the metadata collection: the count update, then every
      characteristic update, on the product's document; with no document nothing is written
      (no upsert) and every characteristic update fails. */
  function UpdatedMetas(metas: map<int, Meta>, productId: int, review: NewReview): (r: (map<int, Meta>, bool))
    ensures r.0.Keys == metas.Keys
    ensures forall p :: p in metas && p != productId ==> r.0[p] == metas[p]
    ensures productId !in metas ==> r.0 == metas && (r.1 <==> review.characteristics != [])
  {
    if productId in metas then
      var merged := MergeAll(IncCounts(metas[productId], review.rating, review.recommend), review.characteristics);
      (metas[productId := merged.meta], merged.failed)
    else (metas, review.characteristics != [])
  }

  /** One more posted characteristic: its update applies to the document if its name has an
      entry there, and otherwise the call fails. */
  lemma UpdatedMetasSnoc(metas: map<int, Meta>, productId: int, rating: int, recommend: bool, chars: seq<CharInput>, c: CharInput)
    ensures var (ms, f) := UpdatedMetas(metas, productId, NewReview(rating, recommend, chars));
      var r := if productId in ms then MergeCharacteristic(ms[productId], c) else None;
      UpdatedMetas(metas, productId, NewReview(rating, recommend, chars + [c])) ==
        (if r.Some? then ms[productId := r.value] else ms, f || r.None?)
  {
    var all := chars + [c];
    assert all[..|all| - 1] == chars && all[|all| - 1] == c;
    if productId in metas {
      var m0 := IncCounts(metas[productId], rating, recommend);
      var r := MergeAll(m0, chars);
      var ms := metas[productId := r.meta];
      assert UpdatedMetas(metas, productId, NewReview(rating, recommend, chars)) == (ms, r.failed);
      match MergeCharacteristic(r.meta, c)
      case None =>
        assert MergeAll(m0, all) == Merged(r.meta, true);
      case Some(m') =>
        assert MergeAll(m0, all) == Merged(m', r.failed);
        assert ms[productId := m'] == metas[productId := m'];
    }
  }

  /** What one updateMeta call does to the collection: only the product's document changes;
      its rating total and recommend total each grow by one, its entries keep their names,
      and the call fails exactly when some posted name has no entry (or there is no
      document and something was posted). */
  lemma UpdatedMetasEffect(metas: map<int, Meta>, productId: int, review: NewReview)
    ensures var (metas', failed) := UpdatedMetas(metas, productId, review);
      && metas'.Keys == metas.Keys
      && (forall p :: p in metas && p != productId ==> metas'[p] == metas[p])
      && (productId !in metas ==> metas' == metas && (failed <==> review.characteristics != []))
      && (productId in metas ==>
        var m, m' := metas[productId], metas'[productId];
        && BucketTotal(m'.ratings) == BucketTotal(m.ratings) + 1
        && m'.recommended.yes + m'.recommended.no == m.recommended.yes + m.recommended.no + 1
        && |m'.characteristics| == |m.characteristics|
        && (forall j :: 0 <= j < |m.characteristics| ==> m'.characteristics[j].name == m.characteristics[j].name)
        && (failed <==> exists c :: c in review.characteristics && FindChar(m.characteristics, c.name) == |m.characteristics|))
  {
    if productId in metas {
      var m := metas[productId];
      MergeAllShape(IncCounts(m, review.rating, review.recommend), review.characteristics);
    }
  }

  // ---------------------------------------------------------------------------------------
  // The store

  class Store {
    var reviews: seq<StoredReview>
    var metas: map<int, Meta>

    constructor (reviews: seq<StoredReview>, metas: map<int, Meta>)
      ensures this.reviews == reviews && this.metas == metas
    {
      this.reviews, this.metas := reviews, metas;
    }

    /** getReviews: `find({product_id, reported: {$ne: true}})`. */
    method GetReviews(productId: int) returns (found: seq<StoredReview>)
      ensures found == Visible(reviews, productId)
    {
      found := [];
      var i := 0;
      while i < |reviews|
        invariant 0 <= i <= |reviews|
        invariant found == Visible(reviews[..i], productId)
      {
        assert reviews[..i + 1][..i] == reviews[..i];
        if reviews[i].productId == productId && !reviews[i].reported {
          found := found + [reviews[i]];
        }
        i := i + 1;
      }
      assert reviews[..i] == reviews;
    }

    /** getMeta: `find({product_id})`, the product's document if there is one. */
    method GetMeta(productId: int) returns (found: seq<Meta>)
      ensures |found| <= 1
      ensures found == [] <==> productId !in metas
      ensures forall m :: m in found ==> productId in metas && m == metas[productId]
    {
      found := if productId in metas then [metas[productId]] else [];
    }

    /** addReview: saves the posted review as a new document at the next `_id`. It is reported
        only when the body posts `reported: true`. */
    method AddReview(data: ReviewData) returns (id: nat)
      modifies this
      ensures id == |old(reviews)| && reviews == old(reviews) + [NewDocument(data)]
      ensures reviews[id].reported <==> data.reported == Some(true)
      ensures reviews[id].productId == data.productId
      ensures metas == old(metas)
    {
      id := |reviews|;
      reviews := reviews + [NewDocument(data)];
    }

    /** updateHelpful: `updateOne({_id}, {$inc: {helpfulness: 1}})`. */
    method UpdateHelpful(id: int)
      modifies this
      ensures reviews == MarkHelpful(old(reviews), id)
      ensures metas == old(metas)
    {
      if 0 <= id < |reviews| {
        reviews := reviews[id := reviews[id].(helpfulness := reviews[id].helpfulness + 1)];
      }
    }

    /** reportReview: `updateOne({_id}, {reported: true})`. */
    method ReportReview(id: int)
      modifies this
      ensures reviews == MarkReported(old(reviews), id)
      ensures metas == old(metas)
    {
      if 0 <= id < |reviews| {
        reviews := reviews[id := reviews[id].(reported := true)];
      }
    }

    /** The count update of updateMeta: `updateOne({product_id}, {$inc: ...})` without upsert. */
    method IncMetaCounts(productId: int, rating: int, recommend: bool)
      modifies this
      ensures reviews == old(reviews)
      ensures productId in old(metas) ==> metas == old(metas)[productId := IncCounts(old(metas)[productId], rating, recommend)]
      ensures productId !in old(metas) ==> metas == old(metas)
    {
      if productId in metas {
        var m := metas[productId];
        var ratings := m.ratings;
        ratings := ratings[rating := (if rating in ratings then ratings[rating] else 0) + 1];
        var recommended := m.recommended;
        if recommend {
          recommended := recommended.(yes := recommended.yes + 1);
        } else {
          recommended := recommended.(no := recommended.no + 1);
        }
        metas := metas[productId := m.(ratings := ratings, recommended := recommended)];
      }
    }

    /** One characteristic of updateMeta: findOneAndUpdate on the first entry with the name
        (`$inc` total and count, returning the new document), then the entry's value set to
        total / count. `matched` is false when no document has such an entry, where the source
        reads `.characteristics` of null. */
    method MergeOne(productId: int, c: CharInput) returns (matched: bool)
      modifies this
      ensures reviews == old(reviews)
      ensures var r := if productId in old(metas) then MergeCharacteristic(old(metas)[productId], c) else None;
        && (matched <==> r.Some?)
        && (r.Some? ==> metas == old(metas)[productId := r.value])
        && (r.None? ==> metas == old(metas))
    {
      if productId !in metas {
        return false;
      }
      var m := metas[productId];
      var k := FindChar(m.characteristics, c.name);
      if k == |m.characteristics| {
        return false;
      }
      var e := m.characteristics[k];
      var updatedMeta := m.(characteristics := m.characteristics[k := e.(total := e.total + c.value, count := e.count + 1)]);
      metas := metas[productId := updatedMeta];
      FindCharSameNames(updatedMeta.characteristics, m.characteristics, c.name);
      var j := FindChar(updatedMeta.characteristics, c.name);
      var charToUpdate := updatedMeta.characteristics[j];
      var newValue := charToUpdate.total as real / charToUpdate.count as real;
      assert j == k && charToUpdate == Incremented(e, c.value);
      assert updatedMeta.characteristics[j := charToUpdate.(value := newValue)] == m.characteristics[k := charToUpdate.(value := newValue)];
      metas := metas[productId := updatedMeta.(characteristics := updatedMeta.characteristics[j := charToUpdate.(value := newValue)])];
      matched := true;
    }

    /** updateMeta: the count update, then each posted characteristic in turn. `failed` is
        whether the returned promise rejects. */
    method UpdateMeta(productId: int, review: NewReview) returns (failed: bool)
      modifies this
      ensures reviews == old(reviews)
      ensures (metas, failed) == UpdatedMetas(old(metas), productId, review)
    {
      IncMetaCounts(productId, review.rating, review.recommend);
      failed := false;
      var chars := review.characteristics;
      var i := 0;
      while i < |chars|
        invariant 0 <= i <= |chars|
        invariant reviews == old(reviews)
        invariant (metas, failed) == UpdatedMetas(old(metas), productId, NewReview(review.rating, review.recommend, chars[..i]))
      {
        UpdatedMetasSnoc(old(metas), productId, review.rating, review.recommend, chars[..i], chars[i]);
        assert chars[..i + 1] == chars[..i] + [chars[i]];
        var matched := MergeOne(productId, chars[i]);
        if !matched {
          failed := true;
        }
        i := i + 1;
      }
      assert chars[..i] == chars;
    }
  }
}
